=== FILE: README.md ===
# Shopify order webhook receiver — Dafny model

This project models the `POST /webhook` handler of a small service that receives Shopify
order notifications. The handler:

- calls `verifyHmac`, but its guard tests the returned promise and never rejects;
- parses and validates the order with zod;
- looks for duplicates in the `users` table by phone and by IP;
- enriches the order with ipinfo geolocation data;
- forwards the order to the NutraFirst fulfillment API;
- records the outcome in three append-only tables (`users`, `order_logs`, `webhook_logs`).

The handler is modelled as one pure step:

    Handle(store, request, world) -> Step(response, store', ipLookup, forwarded)

`world` holds every answer from outside the handler's own code:

- the shared secret and the crypto primitives (UTF-8, HMAC-SHA-256, base64);
- `JSON.parse`, zod's per-key messages and `JSON.stringify`;
- the geolocation reply for an IP and the fulfillment reply for a payload;
- the keys `generateId` hands out, and the clock.

Files and modules:

- `wrappers.dfy` — `Wrappers`: `Option` (`undefined`/`null`, `??`) and `Result` (thrown errors).
- `js.dfy` — `Js`: JSON values, promises and their truthiness, thrown values, `s[0].prop` on an empty array.
- `validation.dfy` — `Validation`: `ShopifyWebhookSchema` as a structural predicate, the typed order it yields with an encoder for the round trip, and `nutraAffilateSchema` as a predicate.
- `schema.dfy` — `Schema`: the three tables' rows (a `string` column is NOT NULL, an `Option` column is nullable), inserts, and `select … where eq` as a filter.
- `utils.dfy` — `Utils`: `sanitize` (defined, never called), `verifyHmac`, `fetchIPDetails`, the `postData` mapping, the success rule of `sendToNutraFirst`, and `logErrors`.
- `app.dfy` — `App`: note-attribute lookups, the phone fallback, the catch block, and the handler.
- `app_properties.dfy` — `AppProperties`: properties that relate several requests, or a request to a variant of itself.

Notable behaviours the contracts pin down:

- `verifyHmac` is `async`, so the guard `!verifyHmac(...)` negates a promise and is always false. The 400 exit is unreachable.
- An empty `line_items` array passes validation. The handler then fails reading `line_items[0].sku`, before the duplicate check.
- The users row stores the possibly-empty IP, and the duplicate test is `length > 1`. So once two orders without an "IP Address" attribute have succeeded, every later such order that has a line item is reported as a duplicate. Orders whose forward failed, or whose `line_items` was empty, write no users row and do not count towards this. A later order with an empty `line_items` still ends in the TypeError 500.
- No request field is sanitised: the utility module defines `sanitize` but nothing calls it. The model keeps it, with its own properties, as the module defines it.
- In the forwarded payload, `String(x) ?? fallback` never falls back. When `province` is absent, `state` is the text "undefined".

## Model

| member | source | states |
|---|---|---|
| Validation.Validate | src/validation/index.ts:3-39 | accepts exactly the JSON that satisfies the structural schema predicate; on rejection lists exactly the failing top-level keys, and none when the input is not an object; on acceptance returns the order the JSON carries (`OrderCarried`: every schema field of the order, customer, shipping address, note attributes and line items holds the returned value, absent or null giving `None`) |
| Validation.OrderCarriedIsUnique | src/validation/index.ts:3-39 | a payload carries at most one order, so `OrderCarried` pins every field of the result |
| Validation.ValidateIffCarried | src/validation/index.ts:3-39 | validation succeeds with an order exactly when the payload conforms and carries that order |
| Validation.FailingKeys | src/app.ts:109-111 | the keys reported in `fieldErrors` are exactly those whose part of the schema fails |
| Validation.ValidateEncodeRoundTrip | src/validation/index.ts:3-39 | every order is accepted back unchanged from its JSON encoding, whether `id` is a string or a number |
| Validation.ValidateIgnoresUnknownKeys | src/validation/index.ts:3 | a key the schema does not name never changes the validation outcome |
| Validation.MissingAddress1Rejected | src/validation/index.ts:11-23 | a shipping address without `address1` is rejected, with `shipping_address` among the field errors |
| Validation.MissingCustomerFirstNameRejected | src/validation/index.ts:5-10 | `customer.first_name` must be present; without it the order is rejected under `customer` |
| Validation.NullCustomerFirstNameAccepted | src/validation/index.ts:6 | a `null` `customer.first_name`, with the other customer fields conforming, never puts `customer` among the field errors, and the accepted order has no first name |
| Validation.EmptyLineItemsAccepted | src/validation/index.ts:30-38 | an order with zero line items passes validation |
| Schema.SelectUsersWhere | src/app.ts:50-51 | the select returns only rows of the table whose column equals the value, and every such row |
| Schema.MoreThanOneIffTwoRowsMatch | src/app.ts:65 | `length > 1` holds exactly when two distinct stored users match |
| Utils.Sanitize | src/lib/utils.ts:9-11 | the result has no `<` or `>`, and every other character keeps its count |
| Utils.SanitizeConcat | src/lib/utils.ts:9-11 | sanitising distributes over concatenation, so the kept characters stay in order |
| Utils.SanitizeKeepsCleanText | src/lib/utils.ts:9-11 | text without angle brackets is left unchanged |
| Utils.SanitizeIdempotent | src/lib/utils.ts:9-11 | sanitising twice is sanitising once |
| Utils.VerifyHmac | src/lib/utils.ts:14-22 | the promise settles to true iff the header equals base64(HMAC-SHA-256(secret, body)) |
| Utils.ForgedBodyRejected | src/lib/utils.ts:14-22 | altering the body invalidates the signature: with UTF-8, HMAC-SHA-256 under a fixed key and base64 idealised as injective, the signature of a body verifies that body and no other |
| Utils.FetchIpDetails | src/lib/utils.ts:74-87 | yields details only for an ok response with a parsable body, and `undefined` on every failure; it never throws |
| Utils.BuildPostData | src/lib/utils.ts:34-51 | reads only `line_items[0]` and throws on an empty array; payment "COD", `sub1 = String(id)`, empty `sub2`/`sub3`; `pincode = String(zip)`; `state = String(province)`, so "undefined" when absent; only `city` falls back to the enrichment city; `telephone = customer.phone ?? ""` |
| Utils.PostDataReadsFirstItemOnly | src/lib/utils.ts:35-47 | two orders that differ only after the first line item forward the same payload |
| Utils.PostDataFallbackUse | src/lib/utils.ts:43-50 | the enrichment postal code and region never reach the payload; the enrichment city reaches it only when the shipping city is absent |
| Validation.NutraSchemaHolds | src/validation/index.ts:41-58 | `nutraAffilateSchema`: every required payload field is non-empty, `email_id` passes the e-mail test, and `payment` is "COD" |
| Utils.NullFirstNameViolatesNutraSchema | src/validation/index.ts:41-58 | a null `customer.first_name` gives a payload that violates `nutraAffilateSchema` |
| Utils.MissingEmailViolatesNutraSchema | src/validation/index.ts:49 | a customer without an e-mail gives `email_id` "", which violates the schema's e-mail check |
| Utils.SendOutcome | src/lib/utils.ts:58-71 | success iff the reply has HTTP status 200; no response text iff the call threw |
| Utils.SendToNutraFirst | src/lib/utils.ts:24-72 | posts the mapped payload; succeeds iff the API answers 200; throws only for an empty `line_items` |
| Utils.LogErrors | src/lib/utils.ts:94-101 | appends exactly one `webhook_logs` row with status "failure", the cause as reason and the message; other tables are untouched |
| Js.Truthy | src/app.ts:38 | a promise is truthy whatever it settles to, so `!verifyHmac(...)` is always false |
| Js.FirstElement | src/app.ts:58 | `product[0].sku`: the first element when the array is non-empty, else the TypeError for reading `sku` of undefined |
| App.FindAttribute | src/app.ts:45-48 | absent iff no attribute has the name; otherwise the value of the first attribute whose name is exactly the key |
| App.PhoneNumber | src/app.ts:45 | `customer.phone` when not null (even if empty), else the "Phone" note-attribute lookup |
| App.NewUserFor | src/app.ts:82-98 | the `newUser` values: shipping values before enrichment values for state, city and country, the possibly-empty IP, `String(...)` of zip, id and product id, and the price's text (its contents are stated by `AppProperties.SuccessRowContents`) |
| App.Caught | src/app.ts:108-118 | always 500 with one `webhook_logs` row; ZodError: reason "ZodError", message = JSON of the field errors; other Error: its name and message; anything else: "Internal Server Error" / "something went wrong" |
| App.Record | src/app.ts:78-107 | failed forward: 500 and one failure row (reason = response text or ""); success: "ok", one users row and one "Success" order_logs row with payload "{}", no webhook_logs row |
| App.HandleOrder | src/app.ts:43-107 | enrichment is called iff the IP is non-empty; empty line items always end in the TypeError 500, even for a would-be duplicate; duplicate iff two stored users share the phone or the IP, and then nothing is written or forwarded; the forwarded payload is the mapping of the order; the exit rows are exactly as stated for each exit |
| App.Handle | src/app.ts:33-120 | never answers 400; answers 200 or 500; only appends rows, at most one per table, each with the fresh key; a JSON syntax error or a schema violation is logged as such; a parsed order is handled as HandleOrder states |
| AppProperties.SignatureIgnored | src/app.ts:35-40 | the outcome is the same whatever the signature header, secret or crypto primitives |
| AppProperties.EnrichmentNeverAborts | src/app.ts:53-56 | whether the order is forwarded never depends on the geolocation reply; with a shipping city, neither do the response and the payload |
| AppProperties.OnlyAcceptanceMatters | src/app.ts:68-81 | two fulfillment APIs that accept the same payloads give the same response, payload, `users` and `order_logs`; `webhook_logs` rows differ at most in their reason |
| AppProperties.SuccessRowContents | src/app.ts:82-106 | in the users row, name, address1 and product url come from the "Name"/"Address"/"full_url" note attributes; phone and ip are the handler's values; pincode, order id, product id and price are `String(...)` of the order's values; address2 is the shipping value; state, city and country prefer the shipping value, then the enrichment value; the order log is "Success" with payload "{}" |
| AppProperties.OnePriorMatchProceeds | src/app.ts:65-67 | one earlier user with the same phone and IP, among any stored users that share neither, does not make a duplicate; the order is forwarded |
| AppProperties.TwoPriorPhonesDuplicate | src/app.ts:50-67 | two earlier users with the same phone make a duplicate that writes nothing |
| AppProperties.EmptyIpOrdersBecomeDuplicates | src/app.ts:46-90 | after two successful orders without an "IP Address" attribute, every later such order with a line item is a duplicate that writes nothing, in any store extending the one those two left |
| AppProperties.HandleKeepsKeysUnique | src/db/schema.ts:5-65 | with fresh generated keys, every table's primary keys stay unique |

## Left out

- Hono routing, CORS, middleware and the lazily initialised database handle (src/app.ts:12-32): framework and connection plumbing.
- HMAC-SHA-256, base64 and UTF-8 internals: they are opaque functions in `Utils.Crypto`.
- The unhandled rejection of the un-awaited `verifyHmac` promise: it cannot reach the handler's `catch`.
- `JSON.parse` is an oracle that yields a value or a `SyntaxError` message.
- zod's wording of each field error is an oracle, as is `JSON.stringify`. Only which keys are listed is modelled.
- The fetch calls, URLs, API-key headers and `console.log` output: the replies are given as functions of the IP or the payload.
- Utils.FetchIpDetails: the body is trusted to have the declared `IPDetails` fields, following the unchecked `as IPDetails` cast. A reply missing fields is not modelled.
- `parseFloat(String(price))`: floating point. The `product_price` column keeps the price's text.
- Database driver failures: a failing select, a failing insert inside `logErrors`, or a failure between the two success inserts.
- App.Caught: its third branch (a thrown non-`Error`) is modelled, but no modelled step throws such a value.
- `generateId` (src/lib/id is not part of this model): keys come from the world, and uniqueness is assumed of them.
- src/db/migrate.ts and drizzle.config.ts: migration and configuration tooling.
- Concurrent requests: each request is one sequential step over the tables.

=== FILE: app.dfy ===
/**
 The `POST /webhook` handler as a pure step: from the tables, the request
 and the answers of the outside world (`World`) to the HTTP response, the
 tables after the request, and the outbound calls made.

 Exits, in the order the handler can take them:
 - the signature guard (400), which can never fire;
 - a thrown error (500, one `webhook_logs` row): unparsable JSON, a schema
   violation, or an empty `line_items` array;
 - a duplicate order (200 "order already placed", no rows);
 - a failed forward (500, one `webhook_logs` row);
 - success (200 "ok", one `users` row and one `order_logs` row).
 */
module App {
  import opened Wrappers
  import opened Js
  import opened Validation
  import opened Schema
  import opened Utils

  datatype Response = Response(status: int, body: Json)

  const InvalidSignature: Response := Response(400, JObj(map["error" := JStr("Invalid HMAC signature")]))
  const AlreadyPlaced: Response := Response(200, JObj(map["status" := JStr("order already placed")]))
  const Ok: Response := Response(200, JStr("ok"))
  const ForwardFailedMessage: string := "Failed to send data to NutraFirst API"
  const GenericErrorMessage: string := "something went wrong"
  const GenericErrorCause: string := "Internal Server Error"

  /** `c.json({ error }, 500)` */
  function ServerError(error: Json): Response {
    Response(500, JObj(map["error" := error]))
  }

  /** The `x-shopify-hmac-sha256` header (absent or not) and the raw body text. */
  datatype Request = Request(hmacHeader: Option<string>, body: string)

  /** `CURRENT_TIMESTAMP` for column defaults and `new Date().toISOString()` for `logErrors`. */
  datatype Clock = Clock(dbNow: string, isoNow: string)

  /** The keys `generateId` would produce for each table. */
  datatype FreshIds = FreshIds(user: string, orderLog: string, webhookLog: string)

  /**
   Everything the handler learns from outside its own code: the shared
   secret and crypto primitives, `JSON.parse` (a `SyntaxError` message on
   failure), zod's messages for a failing top-level key, `JSON.stringify`,
   the geolocation service's reply for an IP, the fulfillment API's reply
   for a payload, fresh keys and the clock.
   */
  datatype World = World(
    secret: string,
    crypto: Crypto,
    parseJson: string -> Result<Json, string>,
    zodMessages: (string, Json) -> seq<string>,
    stringify: Json -> string,
    ipinfo: string -> IpReply,
    nutra: PostData -> ForwardReply,
    ids: FreshIds,
    clock: Clock)

  /** The response, the tables afterwards, and the IP looked up and payload forwarded, if any. */
  datatype Step = Step(response: Response, store: Store, ipLookup: Option<string>, forwarded: Option<PostData>)

  // ---------------------------------------------------------------------
  // Reading the order

  /** `note_attributes.find((attr) => attr.name === key)?.value` */
  function FindAttribute(attrs: seq<NoteAttribute>, key: string): (r: Option<string>)
    ensures r.None? <==> forall i :: 0 <= i < |attrs| ==> attrs[i].name != key
    ensures r.Some? ==>
              exists i :: && 0 <= i < |attrs| && attrs[i].name == key && attrs[i].value == r.value
                          && forall j :: 0 <= j < i ==> attrs[j].name != key
  {
    if |attrs| == 0 then None
    else if attrs[0].name == key then Some(attrs[0].value)
    else
      var r := FindAttribute(attrs[1..], key);
      assert forall i :: 1 <= i < |attrs| ==> attrs[i] == attrs[1..][i - 1];
      r
  }

  /** `find(...)?.value ?? ""` */
  function AttributeOrEmpty(attrs: seq<NoteAttribute>, key: string): string {
    FindAttribute(attrs, key).GetOr("")
  }

  function IpAddress(order: Order): string {
    AttributeOrEmpty(order.noteAttributes, "IP Address")
  }

  function FullName(order: Order): string {
    AttributeOrEmpty(order.noteAttributes, "Name")
  }

  function AddressOf(order: Order): string {
    AttributeOrEmpty(order.noteAttributes, "Address")
  }

  function ProductUrl(order: Order): string {
    AttributeOrEmpty(order.noteAttributes, "full_url")
  }

  /**
   The phone number: `customer.phone` when it is not null (even if empty),
   else the first "Phone" note attribute, else "".
   */
  function PhoneNumber(order: Order): (r: string)
    ensures order.customer.phone.Some? ==> r == order.customer.phone.value
    ensures order.customer.phone.None? ==> r == AttributeOrEmpty(order.noteAttributes, "Phone")
  {
    order.customer.phone.GetOr(AttributeOrEmpty(order.noteAttributes, "Phone"))
  }

  /** `ipDetails`: looked up only when the IP is non-empty (a truthy string). */
  function Enrichment(order: Order, w: World): Option<IpDetails> {
    var ip := IpAddress(order);
    if ip != "" then FetchIpDetails(w.ipinfo(ip)) else None
  }

  function RegionOf(d: Option<IpDetails>): Option<string> {
    match d
    case Some(x) => Some(x.region)
    case None => None
  }

  function CityOf(d: Option<IpDetails>): Option<string> {
    match d
    case Some(x) => Some(x.city)
    case None => None
  }

  function CountryOf(d: Option<IpDetails>): Option<string> {
    match d
    case Some(x) => Some(x.country)
    case None => None
  }

  function PostalOf(d: Option<IpDetails>): Option<string> {
    match d
    case Some(x) => Some(x.postal)
    case None => None
  }

  /** The `optionalData` argument: each `ipDetails?.field ?? ""`. */
  function FallbackFrom(d: Option<IpDetails>): Fallback {
    Fallback(pincode := PostalOf(d).GetOr(""), city := CityOf(d).GetOr(""), province := RegionOf(d).GetOr(""))
  }

  /** `newUser`: the values inserted into `users` on success. */
  function NewUserFor(order: Order, item: LineItem, d: Option<IpDetails>): NewUser {
    var ship := order.shippingAddress;
    NewUser(
      name := FullName(order),
      phone := PhoneNumber(order),
      pincode := StringOf(ship.zip),
      productName := item.name.GetOr(""),
      productSku := item.sku,
      ip := Some(IpAddress(order)),
      state := ship.province.OrElse(RegionOf(d)),
      city := ship.city.OrElse(CityOf(d)),
      address1 := Some(AddressOf(order)),
      address2 := ship.address2,
      country := ship.country.OrElse(CountryOf(d)),
      orderId := Some(StringOf(order.id)),
      productId := Some(StringOf(item.productId)),
      productUrl := Some(ProductUrl(order)),
      productPrice := Some(StringOf(item.price)))
  }

  // ---------------------------------------------------------------------
  // The catch block

  /** `error.flatten().fieldErrors`: each failing top-level key with zod's messages for it. */
  function FieldErrorsJson(keys: seq<string>, data: Json, messages: (string, Json) -> seq<string>): Json {
    JObj(map k | k in keys :: JArr(seq(|messages(k, data)|, i requires 0 <= i < |messages(k, data)| => JStr(messages(k, data)[i]))))
  }

  /** The webhook_logs row `logErrors` appends for this request. */
  function FailureRow(w: World, reason: string, message: string): WebhookLogRow {
    WebhookLogRow(w.ids.webhookLog, LogStatusFailure, reason, message, w.clock.isoNow)
  }

  /** Exactly one `webhook_logs` row was appended and no other table changed. */
  predicate FailureLogged(s: Store, s': Store, row: WebhookLogRow) {
    s'.users == s.users && s'.orderLogs == s.orderLogs && s'.webhookLogs == s.webhookLogs + [row]
  }

  /**
   The shape every exit leaves: answer 200 or 500, rows only appended, each
   table grown by at most one row carrying the fresh key, and per exit
   exactly the rows that exit writes.
   */
  predicate ExitShape(store: Store, r: Step, w: World) {
    && (r.response.status == 200 || r.response.status == 500)
    && (r.response.status == 200 ==> r.response == Ok || r.response == AlreadyPlaced)
    && Extends(store, r.store)
    && (r.response == AlreadyPlaced ==> r.store == store && r.forwarded.None?)
    && (r.response.status == 500 ==>
          && r.store.users == store.users && r.store.orderLogs == store.orderLogs
          && |r.store.webhookLogs| == |store.webhookLogs| + 1
          && r.store.webhookLogs[|store.webhookLogs|].status == LogStatusFailure
          && r.store.webhookLogs[|store.webhookLogs|].id == w.ids.webhookLog)
    && (r.response == Ok ==>
          && r.store.webhookLogs == store.webhookLogs
          && |r.store.users| == |store.users| + 1
          && r.store.users[|store.users|].id == w.ids.user
          && |r.store.orderLogs| == |store.orderLogs| + 1
          && r.store.orderLogs[|store.orderLogs|].id == w.ids.orderLog
          && r.store.orderLogs[|store.orderLogs|].status == "Success")
  }

  /**
   The catch block: a `ZodError` is logged with its name and its field
   errors as JSON, any other `Error` with its name and message, anything
   else with fixed texts; in every case one `webhook_logs` row and a 500.
   */
  function Caught(store: Store, e: Thrown, w: World, ipLookup: Option<string>, forwarded: Option<PostData>): (r: Step)
    ensures r.response.status == 500
    ensures r.ipLookup == ipLookup && r.forwarded == forwarded
    ensures e.ZodError? ==>
              && r.response == ServerError(e.fieldErrors)
              && FailureLogged(store, r.store, FailureRow(w, ZodErrorName, w.stringify(e.fieldErrors)))
    ensures e.JsError? ==>
              && r.response == ServerError(JStr(e.message))
              && FailureLogged(store, r.store, FailureRow(w, e.name, e.message))
    ensures e.NonError? ==>
              && r.response == ServerError(JStr(GenericErrorMessage))
              && FailureLogged(store, r.store, FailureRow(w, GenericErrorCause, GenericErrorMessage))
    ensures ExitShape(store, r, w)
  {
    match e
    case ZodError(fieldErrors) =>
      Step(ServerError(fieldErrors), LogErrors(store, w.stringify(fieldErrors), ZodErrorName, w.ids.webhookLog, w.clock.isoNow),
           ipLookup, forwarded)
    case JsError(name, message) =>
      Step(ServerError(JStr(message)), LogErrors(store, message, name, w.ids.webhookLog, w.clock.isoNow), ipLookup, forwarded)
    case NonError =>
      Step(ServerError(JStr(GenericErrorMessage)),
           LogErrors(store, GenericErrorMessage, GenericErrorCause, w.ids.webhookLog, w.clock.isoNow), ipLookup, forwarded)
  }

  // ---------------------------------------------------------------------
  // The handler

  /** What the handler does once `sendToNutraFirst` has answered. */
  function Record(store: Store, order: Order, item: LineItem, d: Option<IpDetails>, post: PostData, sent: SendResult,
                  w: World, ipLookup: Option<string>): (r: Step)
    ensures r.forwarded == Some(post) && r.ipLookup == ipLookup
    ensures !sent.success ==>
              && r.response == ServerError(JStr(ForwardFailedMessage))
              && FailureLogged(store, r.store, FailureRow(w, sent.response.GetOr(""), ForwardFailedMessage))
    ensures sent.success ==>
              && r.response == Ok
              && r.store.webhookLogs == store.webhookLogs
              && r.store.users == store.users + [UserRowOf(NewUserFor(order, item, d), Defaults(w.ids.user, w.clock.dbNow))]
              && r.store.orderLogs == store.orderLogs
                                      + [OrderLogRow(w.ids.orderLog, "Success", "{}", FullName(order), PhoneNumber(order),
                                                     Some(IpAddress(order)), w.clock.dbNow)]
    ensures ExitShape(store, r, w)
  {
    if !sent.success then
      Step(ServerError(JStr(ForwardFailedMessage)),
           LogErrors(store, ForwardFailedMessage, sent.response.GetOr(""), w.ids.webhookLog, w.clock.isoNow),
           ipLookup, Some(post))
    else
      var s1 := InsertUser(store, NewUserFor(order, item, d), Defaults(w.ids.user, w.clock.dbNow));
      var log := NewOrderLog("Success", "{}", FullName(order), PhoneNumber(order), Some(IpAddress(order)));
      Step(Ok, InsertOrderLog(s1, log, Defaults(w.ids.orderLog, w.clock.dbNow)), ipLookup, Some(post))
  }

  /**
   The handler after validation. The two selects and the enrichment call
   happen before `line_items[0]` is read, and that read happens before the
   duplicate check.
   */
  function HandleOrder(store: Store, order: Order, w: World): (r: Step)
    ensures Extends(store, r.store)
    ensures r.ipLookup == (if IpAddress(order) != "" then Some(IpAddress(order)) else None)
    ensures |order.lineItems| == 0 ==>
              && r.response == ServerError(JStr(UndefinedPropertyError("sku").message))
              && FailureLogged(store, r.store, FailureRow(w, "TypeError", UndefinedPropertyError("sku").message))
              && r.forwarded.None?
    ensures r.response == AlreadyPlaced <==>
              && |order.lineItems| > 0
              && (TwoRowsMatch(store.users, PhoneColumn, PhoneNumber(order))
                  || TwoRowsMatch(store.users, IpColumn, IpAddress(order)))
    ensures r.response == AlreadyPlaced ==> r.store == store && r.forwarded.None?
    ensures r.forwarded.Some? <==> |order.lineItems| > 0 && r.response != AlreadyPlaced
    ensures r.forwarded.Some? ==> BuildPostData(order, FallbackFrom(Enrichment(order, w))) == Success(r.forwarded.value)
    ensures r.forwarded.Some? && !SendOutcome(w.nutra(r.forwarded.value), w.stringify).success ==>
              && r.response == ServerError(JStr(ForwardFailedMessage))
              && FailureLogged(store, r.store,
                               FailureRow(w, SendOutcome(w.nutra(r.forwarded.value), w.stringify).response.GetOr(""),
                                          ForwardFailedMessage))
    ensures r.response == Ok <==> r.forwarded.Some? && SendOutcome(w.nutra(r.forwarded.value), w.stringify).success
    ensures r.response == Ok ==>
              && r.store.users == store.users + [UserRowOf(NewUserFor(order, order.lineItems[0], Enrichment(order, w)),
                                                           Defaults(w.ids.user, w.clock.dbNow))]
              && r.store.orderLogs == store.orderLogs
                                      + [OrderLogRow(w.ids.orderLog, "Success", "{}", FullName(order), PhoneNumber(order),
                                                     Some(IpAddress(order)), w.clock.dbNow)]
    ensures ExitShape(store, r, w)
  {
    var phone := PhoneNumber(order);
    var ip := IpAddress(order);
    var phoneResults := SelectUsersWhere(store.users, PhoneColumn, phone);
    var ipResults := SelectUsersWhere(store.users, IpColumn, ip);
    var ipLookup := if ip != "" then Some(ip) else None;
    var d := Enrichment(order, w);
    MoreThanOneIffTwoRowsMatch(store.users, PhoneColumn, phone);
    MoreThanOneIffTwoRowsMatch(store.users, IpColumn, ip);
    match FirstElement(order.lineItems, "sku")
    case Failure(e) => Caught(store, e, w, ipLookup, None)
    case Success(item) =>
      if |phoneResults| > 1 || |ipResults| > 1 then
        Step(AlreadyPlaced, store, ipLookup, None)
      else
        match SendToNutraFirst(order, FallbackFrom(d), w.nutra, w.stringify)
        case Failure(e) => Caught(store, e, w, ipLookup, None)
        case Success(sent) => Record(store, order, item, d, sent.0, sent.1, w, ipLookup)
  }

  /** The parsed body, when `JSON.parse` and the schema both accept it. */
  function ParsedOrder(req: Request, w: World): Option<Order> {
    match w.parseJson(req.body)
    case Failure(_) => None
    case Success(data) =>
      match Validate(data)
      case Failure(_) => None
      case Success(order) => Some(order)
  }

  /**
   `POST /webhook`. The signature guard negates the promise `verifyHmac`
   returns rather than its settled value; a promise is always truthy, so
   the guard never rejects.
   */
  function Handle(store: Store, req: Request, w: World): (r: Step)
    ensures r.response != InvalidSignature
    ensures ExitShape(store, r, w)
    ensures w.parseJson(req.body).Failure? ==>
              && r.response == ServerError(JStr(w.parseJson(req.body).error))
              && FailureLogged(store, r.store, FailureRow(w, "SyntaxError", w.parseJson(req.body).error))
    ensures w.parseJson(req.body).Success? && Validate(w.parseJson(req.body).value).Failure? ==>
              var data := w.parseJson(req.body).value;
              var fieldErrors := FieldErrorsJson(Validate(data).error, data, w.zodMessages);
              && r.response == ServerError(fieldErrors)
              && FailureLogged(store, r.store, FailureRow(w, ZodErrorName, w.stringify(fieldErrors)))
    ensures ParsedOrder(req, w).Some? ==> r == HandleOrder(store, ParsedOrder(req, w).value, w)
    ensures ParsedOrder(req, w).None? ==> r.ipLookup.None? && r.forwarded.None?
  {
    var header := req.hmacHeader.GetOr("");
    if !Truthy(VerifyHmac(w.crypto, header, req.body, w.secret)) then
      Step(InvalidSignature, store, None, None)
    else
      match w.parseJson(req.body)
      case Failure(syntaxMessage) => Caught(store, JsError("SyntaxError", syntaxMessage), w, None, None)
      case Success(data) =>
        match Validate(data)
        case Failure(keys) => Caught(store, ZodError(FieldErrorsJson(keys, data, w.zodMessages)), w, None, None)
        case Success(order) => HandleOrder(store, order, w)
  }
}

=== FILE: app_properties.dfy ===
/**
 Properties of the webhook handler that relate several requests, or a
 request to a variant of itself.
 */
module AppProperties {
  import opened Wrappers
  import opened Js
  import opened Validation
  import opened Schema
  import opened Utils
  import opened App

  /** The catch block reads neither the secret nor the crypto primitives. */
  lemma CaughtIgnoresSecret(store: Store, e: Thrown, w: World, secret: string, crypto: Crypto)
    ensures Caught(store, e, w.(secret := secret, crypto := crypto), None, None) == Caught(store, e, w, None, None)
  {
  }

  /** Nothing after validation reads the secret or the crypto primitives. */
  lemma HandleOrderIgnoresSecret(store: Store, order: Order, w: World, secret: string, crypto: Crypto)
    ensures HandleOrder(store, order, w.(secret := secret, crypto := crypto)) == HandleOrder(store, order, w)
  {
  }

  /**
   The outcome does not depend on the signature header, the secret or the
   crypto primitives: a request with a forged signature is handled exactly
   like a correctly signed one.
   */
  lemma SignatureIgnored(store: Store, req: Request, w: World, header: Option<string>, secret: string, crypto: Crypto)
    ensures Handle(store, req.(hmacHeader := header), w.(secret := secret, crypto := crypto)) == Handle(store, req, w)
  {
    match w.parseJson(req.body)
    case Failure(syntaxMessage) =>
      CaughtIgnoresSecret(store, JsError("SyntaxError", syntaxMessage), w, secret, crypto);
    case Success(data) =>
      match Validate(data)
      case Failure(keys) =>
        CaughtIgnoresSecret(store, ZodError(FieldErrorsJson(keys, data, w.zodMessages)), w, secret, crypto);
      case Success(order) =>
        HandleOrderIgnoresSecret(store, order, w, secret, crypto);
  }

  /**
   A failed or missing geolocation lookup never aborts a request: whether the
   order is forwarded does not depend on the geolocation service at all, and
   when the shipping address has a city neither does the response nor the
   payload. Only the users row's state, city and country can differ.
   */
  lemma EnrichmentNeverAborts(store: Store, order: Order, w: World, ipinfo: string -> IpReply)
    ensures HandleOrder(store, order, w.(ipinfo := ipinfo)).forwarded.Some? == HandleOrder(store, order, w).forwarded.Some?
    ensures order.shippingAddress.city.Some? ==>
              && HandleOrder(store, order, w.(ipinfo := ipinfo)).response == HandleOrder(store, order, w).response
              && HandleOrder(store, order, w.(ipinfo := ipinfo)).forwarded == HandleOrder(store, order, w).forwarded
  {
    var w' := w.(ipinfo := ipinfo);
    if |order.lineItems| > 0 {
      PostDataFallbackUse(order, FallbackFrom(Enrichment(order, w')), FallbackFrom(Enrichment(order, w)));
    }
  }

  /** The fulfillment API accepted the payload: it answered with HTTP status 200. */
  predicate Accepted(reply: ForwardReply) {
    reply.ForwardReplied? && reply.status == 200
  }

  /**
   Of the fulfillment API's reply only its acceptance decides the outcome:
   two APIs that accept the same payloads give the same response, the same
   payload, the same `users` and `order_logs` tables, and `webhook_logs`
   rows that differ at most in their reason, where the reply's text goes.
   */
  lemma OnlyAcceptanceMatters(store: Store, order: Order, w: World, nutra: PostData -> ForwardReply)
    requires forall p :: Accepted(nutra(p)) <==> Accepted(w.nutra(p))
    ensures var r1 := HandleOrder(store, order, w.(nutra := nutra));
            var r2 := HandleOrder(store, order, w);
            && r1.response == r2.response
            && r1.forwarded == r2.forwarded
            && r1.store.users == r2.store.users
            && r1.store.orderLogs == r2.store.orderLogs
            && |r1.store.webhookLogs| == |r2.store.webhookLogs|
            && forall i :: 0 <= i < |r1.store.webhookLogs| ==>
                 r1.store.webhookLogs[i].(reason := "") == r2.store.webhookLogs[i].(reason := "")
  {
    var r1 := HandleOrder(store, order, w.(nutra := nutra));
    var r2 := HandleOrder(store, order, w);
    if r1.forwarded.Some? {
      assert Accepted(nutra(r1.forwarded.value)) <==> Accepted(w.nutra(r1.forwarded.value));
    }
  }

  /** On success the users row carries the note-attribute and shipping values the handler reads. */
  lemma SuccessRowContents(store: Store, order: Order, w: World)
    requires HandleOrder(store, order, w).response == Ok
    ensures |order.lineItems| > 0
    ensures var s' := HandleOrder(store, order, w).store;
            var u := s'.users[|store.users|];
            var ship := order.shippingAddress;
            var d := Enrichment(order, w);
            && u.name == FindAttribute(order.noteAttributes, "Name").GetOr("")
            && u.address1 == Some(FindAttribute(order.noteAttributes, "Address").GetOr(""))
            && u.phone == PhoneNumber(order)
            && u.ip == Some(FindAttribute(order.noteAttributes, "IP Address").GetOr(""))
            && u.pincode == StringOf(ship.zip)
            && (ship.province.Some? ==> u.state == ship.province)
            && (ship.province.None? && d.Some? ==> u.state == Some(d.value.region))
            && (ship.province.None? && d.None? ==> u.state.None?)
            && (ship.city.Some? ==> u.city == ship.city)
            && (ship.city.None? && d.Some? ==> u.city == Some(d.value.city))
            && (ship.country.Some? ==> u.country == ship.country)
            && (ship.country.None? && d.Some? ==> u.country == Some(d.value.country))
            && u.productSku == order.lineItems[0].sku
            && u.productName == order.lineItems[0].name.GetOr("")
            && u.orderId == Some(StringOf(order.id))
            && u.productId == Some(StringOf(order.lineItems[0].productId))
            && u.productPrice == Some(StringOf(order.lineItems[0].price))
            && u.productUrl == Some(FindAttribute(order.noteAttributes, "full_url").GetOr(""))
            && u.address2 == ship.address2
            && s'.orderLogs[|store.orderLogs|].status == "Success"
            && s'.orderLogs[|store.orderLogs|].payload == "{}"
  {
  }

  /**
   A single earlier order with the same phone and IP does not make a request
   a duplicate, whatever other users are stored, as long as none of them
   shares the phone or the IP.
   */
  lemma OnePriorMatchProceeds(store: Store, order: Order, w: World, k: nat)
    requires |order.lineItems| > 0
    requires k < |store.users|
    requires store.users[k].phone == PhoneNumber(order) && store.users[k].ip == Some(IpAddress(order))
    requires forall i :: 0 <= i < |store.users| && i != k ==>
               !ColumnEquals(store.users[i], PhoneColumn, PhoneNumber(order))
               && !ColumnEquals(store.users[i], IpColumn, IpAddress(order))
    ensures HandleOrder(store, order, w).response != AlreadyPlaced
    ensures HandleOrder(store, order, w).forwarded.Some?
  {
  }

  /** Two earlier orders with the same phone make a request a duplicate, which writes nothing. */
  lemma TwoPriorPhonesDuplicate(store: Store, order: Order, w: World, i: nat, j: nat)
    requires |order.lineItems| > 0
    requires i < j < |store.users|
    requires store.users[i].phone == PhoneNumber(order) && store.users[j].phone == PhoneNumber(order)
    ensures HandleOrder(store, order, w).response == AlreadyPlaced
    ensures HandleOrder(store, order, w).store == store
  {
    assert ColumnEquals(store.users[i], PhoneColumn, PhoneNumber(order));
    assert ColumnEquals(store.users[j], PhoneColumn, PhoneNumber(order));
  }

  /**
   The users row stores the possibly-empty IP, so once two orders without
   an "IP Address" attribute have succeeded, every later such order that
   has a line item is reported as already placed and writes nothing, in
   whatever store later requests have grown from there.
   */
  lemma EmptyIpOrdersBecomeDuplicates(s0: Store, o1: Order, w1: World, o2: Order, w2: World,
                                      s: Store, o3: Order, w3: World)
    requires IpAddress(o1) == "" && IpAddress(o2) == "" && IpAddress(o3) == ""
    requires HandleOrder(s0, o1, w1).response == Ok
    requires HandleOrder(HandleOrder(s0, o1, w1).store, o2, w2).response == Ok
    requires Extends(HandleOrder(HandleOrder(s0, o1, w1).store, o2, w2).store, s)
    requires |o3.lineItems| > 0
    ensures HandleOrder(s, o3, w3).response == AlreadyPlaced && HandleOrder(s, o3, w3).store == s
  {
    var s1 := HandleOrder(s0, o1, w1).store;
    var s2 := HandleOrder(s1, o2, w2).store;
    var n := |s0.users|;
    assert s2.users[n] == s1.users[n];
    assert s.users[n] == s2.users[n] && s.users[n + 1] == s2.users[n + 1];
    assert ColumnEquals(s.users[n], IpColumn, "");
    assert ColumnEquals(s.users[n + 1], IpColumn, "");
    assert TwoRowsMatch(s.users, IpColumn, IpAddress(o3));
  }

  /** The keys `generateId` hands out for this request are not yet in use. */
  predicate KeysFresh(ids: FreshIds, s: Store) {
    && (forall i :: 0 <= i < |s.users| ==> s.users[i].id != ids.user)
    && (forall i :: 0 <= i < |s.webhookLogs| ==> s.webhookLogs[i].id != ids.webhookLog)
    && (forall i :: 0 <= i < |s.orderLogs| ==> s.orderLogs[i].id != ids.orderLog)
  }

  /**
   Appending at most one row whose key is not yet in use keeps a table's keys
   unique; `key` reads a row's primary key.
   */
  lemma {:induction false} AppendKeepsKeysUnique<T>(rows: seq<T>, rows': seq<T>, key: T -> string, newKey: string)
    requires forall i, j :: 0 <= i < j < |rows| ==> key(rows[i]) != key(rows[j])
    requires forall i :: 0 <= i < |rows| ==> key(rows[i]) != newKey
    requires rows <= rows' && |rows'| <= |rows| + 1
    requires |rows'| == |rows| + 1 ==> key(rows'[|rows|]) == newKey
    ensures forall i, j :: 0 <= i < j < |rows'| ==> key(rows'[i]) != key(rows'[j])
  {
    forall i, j | 0 <= i < j < |rows'|
      ensures key(rows'[i]) != key(rows'[j])
    {
      assert rows'[i] == rows[i];
      if j < |rows| {
        assert rows'[j] == rows[j];
      }
    }
  }

  /** Any step of the handler's shape keeps keys unique when its generated keys are fresh. */
  lemma StepKeepsKeysUnique(store: Store, r: Step, w: World)
    requires ExitShape(store, r, w)
    requires KeysUnique(store) && KeysFresh(w.ids, store)
    ensures KeysUnique(r.store)
  {
    AppendKeepsKeysUnique(store.users, r.store.users, (u: UserRow) => u.id, w.ids.user);
    AppendKeepsKeysUnique(store.webhookLogs, r.store.webhookLogs, (l: WebhookLogRow) => l.id, w.ids.webhookLog);
    AppendKeepsKeysUnique(store.orderLogs, r.store.orderLogs, (l: OrderLogRow) => l.id, w.ids.orderLog);
  }

  /** With fresh keys, a request keeps every table's primary keys unique. */
  lemma HandleKeepsKeysUnique(store: Store, req: Request, w: World)
    requires KeysUnique(store) && KeysFresh(w.ids, store)
    ensures KeysUnique(Handle(store, req, w).store)
  {
    StepKeepsKeysUnique(store, Handle(store, req, w), w);
  }
}

=== FILE: js.dfy ===
/**
 The few pieces of JavaScript's value model that the webhook handler's
 behaviour depends on: JSON values, promises and their truthiness, thrown
 values, and reading a property of the first element of an array.
 */
module Js {
  import opened Wrappers

  /**
   A value as `JSON.parse` produces it. A number is carried as the text
   JavaScript's `String(n)` gives it: the handler never computes with a
   number other than converting it to a string. An object maps each key to
   its value (for a repeated key, `JSON.parse` keeps the last one).
   */
  datatype Json =
    | JNull
    | JBool(b: bool)
    | JNum(text: string)
    | JStr(s: string)
    | JArr(items: seq<Json>)
    | JObj(fields: map<string, Json>)

  /** `String(x)` for a string that may be `undefined`. */
  function StringOfOptional(x: Option<string>): string {
    match x
    case Some(s) => s
    case None => "undefined"
  }

  /** The value of calling an `async` function: a promise of its result. */
  datatype Promise<T> = Promise(settlesTo: T)

  /**
   JavaScript's conversion to boolean. A promise is an object, and every
   object converts to `true`, whatever the promise will settle to.
   */
  predicate Truthy<T>(p: Promise<T>) {
    true
  }

  /** A value that reaches a `catch` block. */
  datatype Thrown =
      /** zod's `ZodError`; `fieldErrors` is `error.flatten().fieldErrors`. */
    | ZodError(fieldErrors: Json)
      /** Any other instance of `Error`. */
    | JsError(name: string, message: string)
      /** A thrown value that is not an `Error`. */
    | NonError

  /** The `error.name` of a `ZodError`. */
  const ZodErrorName: string := "ZodError"

  /** The `TypeError` V8 raises for `s[0].property` when `s` is empty. */
  function UndefinedPropertyError(property: string): Thrown {
    JsError("TypeError", "Cannot read properties of undefined (reading '" + property + "')")
  }

  /**
   `s[0].property`: the first element when there is one; on an empty array
   `s[0]` is `undefined` and reading any property of it throws.
   */
  function FirstElement<T>(s: seq<T>, property: string): (r: Result<T, Thrown>)
    ensures r.Success? <==> |s| > 0
    ensures r.Success? ==> r.value == s[0]
    ensures r.Failure? ==> r.error == UndefinedPropertyError(property)
  {
    if |s| == 0 then Failure(UndefinedPropertyError(property)) else Success(s[0])
  }
}

=== FILE: schema.dfy ===
/**
 The three tables of the service (`users`, `webhook_logs`, `order_logs`) as
 rows held in sequences. A `string` column is `notNull()`; an `Option`
 column is nullable. Every table's `id` is a generated text key and its
 timestamp defaults to the current time: both come from outside the model
 (`Defaults`). Rows are only ever appended.
 */
module Schema {
  import opened Wrappers

  datatype UserRow = UserRow(
    id: string,
    name: string,
    phone: string,
    pincode: string,
    productName: string,
    productSku: string,
    ip: Option<string>,
    state: Option<string>,
    city: Option<string>,
    address1: Option<string>,
    address2: Option<string>,
    country: Option<string>,
    orderId: Option<string>,
    productId: Option<string>,
    productUrl: Option<string>,
    /** the text `parseFloat` reads for the `real` column */
    productPrice: Option<string>,
    createdAt: string)

  datatype WebhookLogRow = WebhookLogRow(
    id: string,
    status: string,
    reason: string,
    message: string,
    timestamp: string)

  datatype OrderLogRow = OrderLogRow(
    id: string,
    status: string,
    payload: string,
    name: string,
    phone: string,
    ip: Option<string>,
    timestamp: string)

  datatype Store = Store(
    users: seq<UserRow>,
    webhookLogs: seq<WebhookLogRow>,
    orderLogs: seq<OrderLogRow>)

  /** The values of the column defaults for one insert: `generateId` and `CURRENT_TIMESTAMP`. */
  datatype Defaults = Defaults(freshId: string, now: string)

  /** The values an insert into `users` supplies (`InsertUser` without `id` and `createdAt`). */
  datatype NewUser = NewUser(
    name: string,
    phone: string,
    pincode: string,
    productName: string,
    productSku: string,
    ip: Option<string>,
    state: Option<string>,
    city: Option<string>,
    address1: Option<string>,
    address2: Option<string>,
    country: Option<string>,
    orderId: Option<string>,
    productId: Option<string>,
    productUrl: Option<string>,
    productPrice: Option<string>)

  /** The values an insert into `order_logs` supplies. */
  datatype NewOrderLog = NewOrderLog(
    status: string,
    payload: string,
    name: string,
    phone: string,
    ip: Option<string>)

  function UserRowOf(v: NewUser, d: Defaults): UserRow {
    UserRow(d.freshId, v.name, v.phone, v.pincode, v.productName, v.productSku, v.ip, v.state,
            v.city, v.address1, v.address2, v.country, v.orderId, v.productId, v.productUrl,
            v.productPrice, d.now)
  }

  function OrderLogRowOf(v: NewOrderLog, d: Defaults): OrderLogRow {
    OrderLogRow(d.freshId, v.status, v.payload, v.name, v.phone, v.ip, d.now)
  }

  /** `db.insert(users).values(v)` */
  function InsertUser(s: Store, v: NewUser, d: Defaults): Store {
    s.(users := s.users + [UserRowOf(v, d)])
  }

  /** `db.insert(order_logs).values(v)` */
  function InsertOrderLog(s: Store, v: NewOrderLog, d: Defaults): Store {
    s.(orderLogs := s.orderLogs + [OrderLogRowOf(v, d)])
  }

  /** `db.insert(webhook_logs).values(...)`; the caller supplies the timestamp. */
  function InsertWebhookLog(s: Store, status: string, reason: string, message: string, id: string, timestamp: string): Store {
    s.(webhookLogs := s.webhookLogs + [WebhookLogRow(id, status, reason, message, timestamp)])
  }

  /** `s2` is `s1` with zero or more rows appended to each table. */
  predicate Extends(s1: Store, s2: Store) {
    s1.users <= s2.users && s1.webhookLogs <= s2.webhookLogs && s1.orderLogs <= s2.orderLogs
  }

  /** Primary keys are unique within each table. */
  predicate KeysUnique(s: Store) {
    && (forall i, j :: 0 <= i < j < |s.users| ==> s.users[i].id != s.users[j].id)
    && (forall i, j :: 0 <= i < j < |s.webhookLogs| ==> s.webhookLogs[i].id != s.webhookLogs[j].id)
    && (forall i, j :: 0 <= i < j < |s.orderLogs| ==> s.orderLogs[i].id != s.orderLogs[j].id)
  }

  // ---------------------------------------------------------------------
  // select().from(users).where(eq(column, v))

  datatype UserColumn = PhoneColumn | IpColumn

  /** SQL `column = v`; a NULL column equals nothing. */
  predicate ColumnEquals(u: UserRow, c: UserColumn, v: string) {
    match c
    case PhoneColumn => u.phone == v
    case IpColumn => u.ip == Some(v)
  }

  /** The rows of `users` whose column `c` equals `v`, in table order. */
  function SelectUsersWhere(users: seq<UserRow>, c: UserColumn, v: string): (r: seq<UserRow>)
    ensures forall u :: u in r ==> u in users && ColumnEquals(u, c, v)
    ensures forall i :: 0 <= i < |users| && ColumnEquals(users[i], c, v) ==> users[i] in r
    ensures |r| <= |users|
  {
    if |users| == 0 then []
    else
      var last := users[|users| - 1];
      var rest := SelectUsersWhere(users[..|users| - 1], c, v);
      if ColumnEquals(last, c, v) then rest + [last] else rest
  }

  /** Two distinct rows of `users` have column `c` equal to `v`. */
  predicate TwoRowsMatch(users: seq<UserRow>, c: UserColumn, v: string) {
    exists i, j :: 0 <= i < j < |users| && ColumnEquals(users[i], c, v) && ColumnEquals(users[j], c, v)
  }

  /** How many rows of `users` have column `c` equal to `v`. */
  function CountMatches(users: seq<UserRow>, c: UserColumn, v: string): nat {
    if |users| == 0 then 0
    else CountMatches(users[..|users| - 1], c, v) + (if ColumnEquals(users[|users| - 1], c, v) then 1 else 0)
  }

  lemma {:induction false} SelectSizeIsCount(users: seq<UserRow>, c: UserColumn, v: string)
    ensures |SelectUsersWhere(users, c, v)| == CountMatches(users, c, v)
  {
    if |users| > 0 {
      SelectSizeIsCount(users[..|users| - 1], c, v);
    }
  }

  lemma {:induction false} SomeRowMatches(users: seq<UserRow>, c: UserColumn, v: string)
    ensures CountMatches(users, c, v) >= 1 <==> exists i :: 0 <= i < |users| && ColumnEquals(users[i], c, v)
  {
    if |users| > 0 {
      var n := |users| - 1;
      var init := users[..n];
      SomeRowMatches(init, c, v);
      if exists i :: 0 <= i < |users| && ColumnEquals(users[i], c, v) {
        var i :| 0 <= i < |users| && ColumnEquals(users[i], c, v);
        if i < n {
          assert init[i] == users[i];
          assert 0 <= i < |init| && ColumnEquals(init[i], c, v);
        }
      }
      if exists i :: 0 <= i < |init| && ColumnEquals(init[i], c, v) {
        var i :| 0 <= i < |init| && ColumnEquals(init[i], c, v);
        assert users[i] == init[i];
        assert 0 <= i < |users| && ColumnEquals(users[i], c, v);
      }
    }
  }

  lemma {:induction false} TwoRowsMatchGivesMoreThanOne(users: seq<UserRow>, c: UserColumn, v: string)
    requires TwoRowsMatch(users, c, v)
    ensures CountMatches(users, c, v) > 1
  {
    var n := |users| - 1;
    var init := users[..n];
    var i, j :| 0 <= i < j < |users| && ColumnEquals(users[i], c, v) && ColumnEquals(users[j], c, v);
    assert init[i] == users[i];
    if j < n {
      assert init[j] == users[j];
      assert 0 <= i < j < |init| && ColumnEquals(init[i], c, v) && ColumnEquals(init[j], c, v);
      TwoRowsMatchGivesMoreThanOne(init, c, v);
    } else {
      assert 0 <= i < |init| && ColumnEquals(init[i], c, v);
      SomeRowMatches(init, c, v);
    }
  }

  lemma {:induction false} MoreThanOneGivesTwoRowsMatch(users: seq<UserRow>, c: UserColumn, v: string)
    requires CountMatches(users, c, v) > 1
    ensures TwoRowsMatch(users, c, v)
  {
    var n := |users| - 1;
    var init := users[..n];
    if ColumnEquals(users[n], c, v) && CountMatches(init, c, v) == 1 {
      SomeRowMatches(init, c, v);
      var i :| 0 <= i < |init| && ColumnEquals(init[i], c, v);
      assert users[i] == init[i];
      assert 0 <= i < n < |users| && ColumnEquals(users[i], c, v) && ColumnEquals(users[n], c, v);
    } else {
      MoreThanOneGivesTwoRowsMatch(init, c, v);
      var i, j :| 0 <= i < j < |init| && ColumnEquals(init[i], c, v) && ColumnEquals(init[j], c, v);
      assert users[i] == init[i] && users[j] == init[j];
      assert 0 <= i < j < |users| && ColumnEquals(users[i], c, v) && ColumnEquals(users[j], c, v);
    }
  }

  /**
   The select returns more than one row exactly when two distinct rows
   match: this is the meaning of the handler's `length > 1` test.
   */
  lemma MoreThanOneIffTwoRowsMatch(users: seq<UserRow>, c: UserColumn, v: string)
    ensures |SelectUsersWhere(users, c, v)| > 1 <==> TwoRowsMatch(users, c, v)
  {
    SelectSizeIsCount(users, c, v);
    if TwoRowsMatch(users, c, v) {
      TwoRowsMatchGivesMoreThanOne(users, c, v);
    }
    if CountMatches(users, c, v) > 1 {
      MoreThanOneGivesTwoRowsMatch(users, c, v);
    }
  }
}

=== FILE: utils.dfy ===
/**
 The helpers of the service's utility module: signature verification, the
 fulfillment payload mapping and its success rule, the geolocation lookup
 and the error-log insert, which the webhook handler calls; and `sanitize`,
 which the module defines but nothing calls, so no request field is ever
 sanitised. Network calls, crypto primitives and `JSON.stringify` are
 parameters: their results are given, not computed.
 */
module Utils {
  import opened Wrappers
  import opened Js
  import opened Validation
  import opened Schema

  // ---------------------------------------------------------------------
  // sanitize: data.replace(/[<>]/g, "")

  predicate IsAngle(c: char) {
    c == '<' || c == '>'
  }

  /**
   Removes every `<` and `>`; every other character is kept, in order.
   `sanitize` is private to its module and never called: the handler uses
   every request field unsanitised.
   */
  function Sanitize(s: string): (r: string)
    ensures '<' !in r && '>' !in r
    ensures multiset(r) == multiset(s)['<' := 0]['>' := 0]
  {
    if s == [] then []
    else
      var rest := Sanitize(s[1..]);
      assert s == [s[0]] + s[1..];
      if IsAngle(s[0]) then rest else [s[0]] + rest
  }

  /** Sanitising works character by character, so it keeps the order of what it keeps. */
  lemma {:induction false} SanitizeConcat(a: string, b: string)
    ensures Sanitize(a + b) == Sanitize(a) + Sanitize(b)
  {
    if a == [] {
      assert a + b == b;
    } else {
      assert (a + b)[0] == a[0];
      assert (a + b)[1..] == a[1..] + b;
      SanitizeConcat(a[1..], b);
    }
  }

  /** A string without angle brackets is left as it is. */
  lemma {:induction false} SanitizeKeepsCleanText(s: string)
    requires '<' !in s && '>' !in s
    ensures Sanitize(s) == s
  {
    if s != [] {
      assert s[0] in s;
      assert forall c :: c in s[1..] ==> c in s;
      SanitizeKeepsCleanText(s[1..]);
    }
  }

  lemma SanitizeIdempotent(s: string)
    ensures Sanitize(Sanitize(s)) == Sanitize(s)
  {
    SanitizeKeepsCleanText(Sanitize(s));
  }

  // ---------------------------------------------------------------------
  // verifyHmac

  newtype byte = x: int | 0 <= x < 256

  /**
   The primitives `verifyHmac` relies on, as opaque functions: UTF-8
   encoding (`TextEncoder`), HMAC-SHA-256 (RFC 2104 over FIPS 180-4) keyed by
   its first argument, and base64 (section 4 of RFC 4648, via
   `btoa(String.fromCharCode(...bytes))`).
   */
  datatype Crypto = Crypto(
    utf8: string -> seq<byte>,
    hmacSha256: (seq<byte>, seq<byte>) -> seq<byte>,
    base64: seq<byte> -> string)

  /** The header value the sender computes for `body` under `secret`. */
  function Signature(c: Crypto, body: string, secret: string): string {
    c.base64(c.hmacSha256(c.utf8(secret), c.utf8(body)))
  }

  /**
   `verifyHmac(header, body, secret)`. It is `async`, so calling it yields a
   promise; the promise settles to whether the header is the signature.
   */
  function VerifyHmac(c: Crypto, header: string, body: string, secret: string): (p: Promise<bool>)
    ensures p.settlesTo <==> header == Signature(c, body, secret)
  {
    Promise(c.base64(c.hmacSha256(c.utf8(secret), c.utf8(body))) == header)
  }

  /** `f` never maps two different inputs to the same output. */
  ghost predicate Injective<X(!new), Y>(f: X -> Y) {
    forall x1, x2 :: f(x1) == f(x2) ==> x1 == x2
  }

  /**
   Altering the body invalidates the signature: the signature of a body
   verifies that body and no other. The primitives are idealised as
   injective (for HMAC-SHA-256, under each fixed key).
   */
  lemma ForgedBodyRejected(c: Crypto, secret: string, body: string, forged: string)
    requires Injective(c.utf8)
    requires forall key, m1, m2 :: c.hmacSha256(key, m1) == c.hmacSha256(key, m2) ==> m1 == m2
    requires Injective(c.base64)
    requires forged != body
    ensures VerifyHmac(c, Signature(c, body, secret), body, secret).settlesTo
    ensures !VerifyHmac(c, Signature(c, body, secret), forged, secret).settlesTo
  {
  }

  // ---------------------------------------------------------------------
  // fetchIPDetails

  /** `IPDetails` */
  datatype IpDetails = IpDetails(
    ip: string,
    city: string,
    region: string,
    country: string,
    loc: Option<string>,
    org: Option<string>,
    postal: string,
    timezone: Option<string>)

  /**
   What the geolocation request produced: `fetch` threw, or a response came
   back with its `ok` flag and the parsed body (`None` when `response.json()`
   threw).
   */
  datatype IpReply = IpFetchThrew | IpResponse(ok: bool, body: Option<IpDetails>)

  /** `fetchIPDetails`: every failure yields `undefined`; it never throws. */
  function FetchIpDetails(reply: IpReply): (r: Option<IpDetails>)
    ensures r.Some? <==> reply.IpResponse? && reply.ok && reply.body.Some?
    ensures r.Some? ==> r.value == reply.body.value
  {
    match reply
    case IpFetchThrew => None
    case IpResponse(ok, body) => if !ok then None else body
  }

  // ---------------------------------------------------------------------
  // sendToNutraFirst

  /** `optionalData`: the enrichment values the mapping may fall back on. */
  datatype Fallback = Fallback(pincode: string, city: string, province: string)

  /**
   The `postData` object. Only `line_items[0]` is read; on an empty array
   reading its `sku` throws.
   */
  function BuildPostData(order: Order, fb: Fallback): (r: Result<PostData, Thrown>)
    ensures r.Success? <==> |order.lineItems| > 0
    ensures r.Failure? ==> r.error == UndefinedPropertyError("sku")
    ensures r.Success? ==>
              var item := order.lineItems[0];
              var ship := order.shippingAddress;
              && r.value.payment == "COD"
              && r.value.sub1 == StringOf(order.id)
              && r.value.sub2 == "" && r.value.sub3 == ""
              && r.value.sku == item.sku
              && r.value.productName == item.name.GetOr("")
              && r.value.productPrice == StringOf(item.price)
              && r.value.telephone == order.customer.phone.GetOr("")
              && r.value.firstName == order.customer.firstName.GetOr("")
              && r.value.lastName == order.customer.lastName.GetOr("")
              && r.value.emailId == order.customer.email.GetOr("")
              && r.value.pincode == StringOf(ship.zip)
              && r.value.address == ship.address1
              && r.value.address1 == ship.address2
              && (ship.city.Some? ==> r.value.city == ship.city.value)
              && (ship.city.None? ==> r.value.city == fb.city)
              && (ship.province.Some? ==> r.value.state == ship.province.value)
              && (ship.province.None? ==> r.value.state == "undefined")
  {
    var item :- FirstElement(order.lineItems, "sku");
    var ship := order.shippingAddress;
    Success(PostData(
      sku := item.sku,
      sub1 := StringOf(order.id),
      sub2 := "",
      sub3 := "",
      firstName := order.customer.firstName.GetOr(""),
      lastName := order.customer.lastName.GetOr(""),
      telephone := order.customer.phone.GetOr(""),
      emailId := order.customer.email.GetOr(""),
      // `String(zip) ?? fb.pincode`: String() never yields null, so the fallback is dead
      pincode := StringOf(ship.zip),
      address := ship.address1,
      address1 := ship.address2,
      productName := item.name.GetOr(""),
      productPrice := StringOf(item.price),
      payment := "COD",
      city := ship.city.GetOr(fb.city),
      // `String(province) ?? fb.province`: likewise dead, and String(undefined) is "undefined"
      state := StringOfOptional(ship.province)))
  }

  /** The payload reads nothing of the order's line items beyond the first. */
  lemma PostDataReadsFirstItemOnly(o1: Order, o2: Order, fb: Fallback)
    requires o1.(lineItems := []) == o2.(lineItems := [])
    requires |o1.lineItems| > 0 && |o2.lineItems| > 0 && o1.lineItems[0] == o2.lineItems[0]
    ensures BuildPostData(o1, fb) == BuildPostData(o2, fb)
  {
  }

  /**
   Of the three enrichment values only the city is ever used, and only when
   the shipping address has no city.
   */
  lemma PostDataFallbackUse(order: Order, fb1: Fallback, fb2: Fallback)
    requires |order.lineItems| > 0
    ensures fb1.city == fb2.city ==> BuildPostData(order, fb1) == BuildPostData(order, fb2)
    ensures order.shippingAddress.city.Some? ==> BuildPostData(order, fb1) == BuildPostData(order, fb2)
  {
  }

  /**
   The payload need not satisfy `nutraAffilateSchema`: a customer whose
   `first_name` is null is forwarded with an empty first name, which the
   schema's `min(1)` rejects.
   */
  lemma NullFirstNameViolatesNutraSchema(order: Order, fb: Fallback, isEmail: string -> bool)
    requires |order.lineItems| > 0 && order.customer.firstName.None?
    ensures !NutraSchemaHolds(BuildPostData(order, fb).value, isEmail)
  {
  }

  /**
   An order without a customer e-mail is forwarded with `email_id` "", which
   the schema's e-mail check rejects whenever "" is not an e-mail address.
   */
  lemma MissingEmailViolatesNutraSchema(order: Order, fb: Fallback, isEmail: string -> bool)
    requires |order.lineItems| > 0 && order.customer.email.None? && !isEmail("")
    ensures !NutraSchemaHolds(BuildPostData(order, fb).value, isEmail)
  {
  }

  /**
   What the fulfillment request produced: something in the `try` threw
   (`fetch`, `response.json()`, or formatting the reply for the log), or a
   JSON reply with its HTTP status.
   */
  datatype ForwardReply = ForwardThrew | ForwardReplied(status: int, body: Json)

  /** `{ success, response }` as `sendToNutraFirst` returns it. */
  datatype SendResult = SendResult(success: bool, response: Option<string>)

  /**
   The result of the fulfillment call: success exactly on HTTP 200, with the
   reply re-serialised; no response text when the call threw.
   */
  function SendOutcome(reply: ForwardReply, stringify: Json -> string): (r: SendResult)
    ensures r.success <==> reply.ForwardReplied? && reply.status == 200
    ensures r.response.None? <==> reply.ForwardThrew?
    ensures reply.ForwardReplied? ==> r.response == Some(stringify(reply.body))
  {
    match reply
    case ForwardThrew => SendResult(false, None)
    case ForwardReplied(status, body) => SendResult(status == 200, Some(stringify(body)))
  }

  /**
   `sendToNutraFirst(data, optionalData, ...)`: the payload it posts and the
   outcome. `nutra` is the fulfillment API's answer to a payload.
   */
  function SendToNutraFirst(order: Order, fb: Fallback, nutra: PostData -> ForwardReply, stringify: Json -> string)
    : (r: Result<(PostData, SendResult), Thrown>)
    ensures r.Success? <==> |order.lineItems| > 0
    ensures r.Success? ==> BuildPostData(order, fb) == Success(r.value.0)
    ensures r.Success? ==> (r.value.1.success <==> nutra(r.value.0).ForwardReplied? && nutra(r.value.0).status == 200)
  {
    var post :- BuildPostData(order, fb);
    Success((post, SendOutcome(nutra(post), stringify)))
  }

  // ---------------------------------------------------------------------
  // logErrors

  const LogStatusFailure: string := "failure"

  /**
   `logErrors({message, errorCause})`: appends exactly one `webhook_logs` row
   with status "failure", and touches no other table.
   */
  function LogErrors(s: Store, message: string, errorCause: string, id: string, timestamp: string): (s': Store)
    ensures s'.users == s.users && s'.orderLogs == s.orderLogs
    ensures |s'.webhookLogs| == |s.webhookLogs| + 1 && s.webhookLogs <= s'.webhookLogs
    ensures s'.webhookLogs[|s.webhookLogs|] == WebhookLogRow(id, "failure", errorCause, message, timestamp)
  {
    InsertWebhookLog(s, LogStatusFailure, errorCause, message, id, timestamp)
  }
}

=== FILE: validation.dfy ===
/**
 The two zod schemas of the service. `ShopifyWebhookSchema` is a structural
 predicate over parsed JSON together with the typed order it yields;
 `nutraAffilateSchema` is a predicate over the payload forwarded to the
 fulfillment API.

 zod's object rules used below: a key missing from the JSON is `undefined`;
 `.optional()` admits `undefined` only, `.nullable()` admits `null` only;
 keys the schema does not name are stripped from the result.
 */
module Validation {
  import opened Wrappers
  import opened Js

  /** A value accepted by `z.string().or(z.number())`. */
  datatype StrOrNum = Text(s: string) | Number(text: string)

  /** JavaScript's `String(x)`. */
  function StringOf(x: StrOrNum): string {
    match x
    case Text(s) => s
    case Number(t) => t
  }

  /** `customer`; `None` is `null` (or `undefined` where the field is optional). */
  datatype Customer = Customer(
    firstName: Option<string>,
    lastName: Option<string>,
    phone: Option<string>,
    email: Option<string>)

  datatype ShippingAddress = ShippingAddress(
    firstName: string,
    lastName: Option<string>,
    phone: StrOrNum,
    zip: StrOrNum,
    address1: string,
    address2: Option<string>,
    city: Option<string>,
    province: Option<string>,
    country: Option<string>,
    countryCode: Option<string>,
    provinceCode: Option<string>)

  datatype NoteAttribute = NoteAttribute(name: string, value: string)

  datatype LineItem = LineItem(
    sku: string,
    name: Option<string>,
    price: StrOrNum,
    quantity: StrOrNum,
    productId: StrOrNum)

  /** The validated webhook payload. */
  datatype Order = Order(
    id: StrOrNum,
    customer: Customer,
    shippingAddress: ShippingAddress,
    noteAttributes: seq<NoteAttribute>,
    lineItems: seq<LineItem>)

  type Fields = map<string, Json>

  // ---------------------------------------------------------------------
  // Field rules

  /** `z.string()` */
  predicate RequiredString(f: Fields, k: string) {
    k in f && f[k].JStr?
  }

  /** `z.string().optional()` */
  predicate OptionalString(f: Fields, k: string) {
    k !in f || f[k].JStr?
  }

  /** `z.string().nullable()`: the key must be present. */
  predicate NullableString(f: Fields, k: string) {
    k in f && (f[k].JStr? || f[k].JNull?)
  }

  /** `z.string().optional().nullable()` */
  predicate OptionalNullableString(f: Fields, k: string) {
    k !in f || f[k].JStr? || f[k].JNull?
  }

  /** `z.string().or(z.number())` */
  predicate StringOrNumber(f: Fields, k: string) {
    k in f && (f[k].JStr? || f[k].JNum?)
  }

  // ---------------------------------------------------------------------
  // ShopifyWebhookSchema, part by part

  predicate CustomerConforms(j: Json) {
    && j.JObj?
    && NullableString(j.fields, "first_name")
    && OptionalNullableString(j.fields, "last_name")
    && NullableString(j.fields, "phone")
    && OptionalNullableString(j.fields, "email")
  }

  predicate ShippingAddressConforms(j: Json) {
    && j.JObj?
    && RequiredString(j.fields, "first_name")
    && OptionalString(j.fields, "last_name")
    && StringOrNumber(j.fields, "phone")
    && StringOrNumber(j.fields, "zip")
    && RequiredString(j.fields, "address1")
    && OptionalString(j.fields, "address2")
    && OptionalString(j.fields, "city")
    && OptionalString(j.fields, "province")
    && OptionalString(j.fields, "country")
    && OptionalString(j.fields, "country_code")
    && OptionalString(j.fields, "province_code")
  }

  predicate NoteAttributeConforms(j: Json) {
    j.JObj? && RequiredString(j.fields, "name") && RequiredString(j.fields, "value")
  }

  predicate LineItemConforms(j: Json) {
    && j.JObj?
    && RequiredString(j.fields, "sku")
    && OptionalString(j.fields, "name")
    && StringOrNumber(j.fields, "price")
    && StringOrNumber(j.fields, "quantity")
    && StringOrNumber(j.fields, "product_id")
  }

  /** An array of any length, every element a `{name, value}` pair of strings. */
  predicate NoteAttributesConform(j: Json) {
    j.JArr? && forall i :: 0 <= i < |j.items| ==> NoteAttributeConforms(j.items[i])
  }

  /** An array of any length (no minimum), every element a line item. */
  predicate LineItemsConform(j: Json) {
    j.JArr? && forall i :: 0 <= i < |j.items| ==> LineItemConforms(j.items[i])
  }

  /** `ShopifyWebhookSchema` as a structural predicate over parsed JSON. */
  predicate ConformsToWebhookSchema(j: Json) {
    && j.JObj?
    && StringOrNumber(j.fields, "id")
    && "customer" in j.fields && CustomerConforms(j.fields["customer"])
    && "shipping_address" in j.fields && ShippingAddressConforms(j.fields["shipping_address"])
    && "note_attributes" in j.fields && NoteAttributesConform(j.fields["note_attributes"])
    && "line_items" in j.fields && LineItemsConform(j.fields["line_items"])
  }

  /** The top-level keys of the schema, in declaration order. */
  const SchemaKeys: seq<string> := ["id", "customer", "shipping_address", "note_attributes", "line_items"]

  /**
   Whether the top-level key `k` of the payload object satisfies its part of
   the schema. zod reports every issue under the first element of its path,
   so this is what decides whether `k` appears in `fieldErrors`.
   */
  predicate KeyConforms(f: Fields, k: string) {
    if k == "id" then StringOrNumber(f, k)
    else if k == "customer" then k in f && CustomerConforms(f[k])
    else if k == "shipping_address" then k in f && ShippingAddressConforms(f[k])
    else if k == "note_attributes" then k in f && NoteAttributesConform(f[k])
    else if k == "line_items" then k in f && LineItemsConform(f[k])
    else true
  }

  /** The keys of `keys` whose part of the schema fails, in the order given. */
  function FailingKeys(f: Fields, keys: seq<string>): (r: seq<string>)
    ensures forall k :: k in r <==> k in keys && !KeyConforms(f, k)
    ensures |r| <= |keys|
  {
    if keys == [] then []
    else
      var rest := FailingKeys(f, keys[1..]);
      if KeyConforms(f, keys[0]) then rest else [keys[0]] + rest
  }

  // ---------------------------------------------------------------------
  // What a JSON value carries, stated key by key and independently of the decoder

  /** Key `k` holds the string `s`. */
  predicate HoldsString(f: Fields, k: string, s: string) {
    k in f && f[k] == JStr(s)
  }

  /** `Some(s)`: key `k` holds the string `s`; `None`: `k` is absent or `null`. */
  predicate HoldsOptional(f: Fields, k: string, x: Option<string>) {
    match x
    case Some(s) => k in f && f[k] == JStr(s)
    case None => k !in f || f[k] == JNull
  }

  /** Key `k` holds the string or the number `x`. */
  predicate HoldsStrOrNum(f: Fields, k: string, x: StrOrNum) {
    match x
    case Text(s) => k in f && f[k] == JStr(s)
    case Number(t) => k in f && f[k] == JNum(t)
  }

  predicate CustomerCarried(j: Json, c: Customer) {
    && j.JObj?
    && HoldsOptional(j.fields, "first_name", c.firstName)
    && HoldsOptional(j.fields, "last_name", c.lastName)
    && HoldsOptional(j.fields, "phone", c.phone)
    && HoldsOptional(j.fields, "email", c.email)
  }

  predicate ShippingAddressCarried(j: Json, a: ShippingAddress) {
    && j.JObj?
    && HoldsString(j.fields, "first_name", a.firstName)
    && HoldsOptional(j.fields, "last_name", a.lastName)
    && HoldsStrOrNum(j.fields, "phone", a.phone)
    && HoldsStrOrNum(j.fields, "zip", a.zip)
    && HoldsString(j.fields, "address1", a.address1)
    && HoldsOptional(j.fields, "address2", a.address2)
    && HoldsOptional(j.fields, "city", a.city)
    && HoldsOptional(j.fields, "province", a.province)
    && HoldsOptional(j.fields, "country", a.country)
    && HoldsOptional(j.fields, "country_code", a.countryCode)
    && HoldsOptional(j.fields, "province_code", a.provinceCode)
  }

  predicate NoteAttributeCarried(j: Json, n: NoteAttribute) {
    j.JObj? && HoldsString(j.fields, "name", n.name) && HoldsString(j.fields, "value", n.value)
  }

  predicate LineItemCarried(j: Json, l: LineItem) {
    && j.JObj?
    && HoldsString(j.fields, "sku", l.sku)
    && HoldsOptional(j.fields, "name", l.name)
    && HoldsStrOrNum(j.fields, "price", l.price)
    && HoldsStrOrNum(j.fields, "quantity", l.quantity)
    && HoldsStrOrNum(j.fields, "product_id", l.productId)
  }

  /**
   `o` is the order the payload `j` carries: every field the schema names
   holds `o`'s value, element by element in the two arrays. Keys the schema
   does not name, at any depth, play no part.
   */
  predicate OrderCarried(j: Json, o: Order) {
    && j.JObj?
    && HoldsStrOrNum(j.fields, "id", o.id)
    && "customer" in j.fields && CustomerCarried(j.fields["customer"], o.customer)
    && "shipping_address" in j.fields && ShippingAddressCarried(j.fields["shipping_address"], o.shippingAddress)
    && "note_attributes" in j.fields && j.fields["note_attributes"].JArr?
    && |j.fields["note_attributes"].items| == |o.noteAttributes|
    && (forall i :: 0 <= i < |o.noteAttributes| ==>
          NoteAttributeCarried(j.fields["note_attributes"].items[i], o.noteAttributes[i]))
    && "line_items" in j.fields && j.fields["line_items"].JArr?
    && |j.fields["line_items"].items| == |o.lineItems|
    && (forall i :: 0 <= i < |o.lineItems| ==> LineItemCarried(j.fields["line_items"].items[i], o.lineItems[i]))
  }

  lemma CustomerCarriedIsUnique(j: Json, c1: Customer, c2: Customer)
    requires CustomerCarried(j, c1) && CustomerCarried(j, c2)
    ensures c1 == c2
  {
  }

  lemma ShippingAddressCarriedIsUnique(j: Json, a1: ShippingAddress, a2: ShippingAddress)
    requires ShippingAddressCarried(j, a1) && ShippingAddressCarried(j, a2)
    ensures a1 == a2
  {
  }

  lemma NotesCarriedAreUnique(items: seq<Json>, n1: seq<NoteAttribute>, n2: seq<NoteAttribute>)
    requires |items| == |n1| == |n2|
    requires forall i :: 0 <= i < |n1| ==> NoteAttributeCarried(items[i], n1[i])
    requires forall i :: 0 <= i < |n2| ==> NoteAttributeCarried(items[i], n2[i])
    ensures n1 == n2
  {
    forall i | 0 <= i < |n1|
      ensures n1[i] == n2[i]
    {
      assert NoteAttributeCarried(items[i], n1[i]) && NoteAttributeCarried(items[i], n2[i]);
    }
  }

  lemma LineItemsCarriedAreUnique(items: seq<Json>, l1: seq<LineItem>, l2: seq<LineItem>)
    requires |items| == |l1| == |l2|
    requires forall i :: 0 <= i < |l1| ==> LineItemCarried(items[i], l1[i])
    requires forall i :: 0 <= i < |l2| ==> LineItemCarried(items[i], l2[i])
    ensures l1 == l2
  {
    forall i | 0 <= i < |l1|
      ensures l1[i] == l2[i]
    {
      assert LineItemCarried(items[i], l1[i]) && LineItemCarried(items[i], l2[i]);
    }
  }

  /** A payload carries at most one order. */
  lemma OrderCarriedIsUnique(j: Json, o1: Order, o2: Order)
    requires OrderCarried(j, o1) && OrderCarried(j, o2)
    ensures o1 == o2
  {
    CustomerCarriedIsUnique(j.fields["customer"], o1.customer, o2.customer);
    ShippingAddressCarriedIsUnique(j.fields["shipping_address"], o1.shippingAddress, o2.shippingAddress);
    NotesCarriedAreUnique(j.fields["note_attributes"].items, o1.noteAttributes, o2.noteAttributes);
    LineItemsCarriedAreUnique(j.fields["line_items"].items, o1.lineItems, o2.lineItems);
  }

  // ---------------------------------------------------------------------
  // Decoding: what `parseAsync` returns once the input conforms

  function StringValue(f: Fields, k: string): string {
    if k in f && f[k].JStr? then f[k].s else ""
  }

  /** A string field, `None` when the key is missing or `null`. */
  function OptionalStringValue(f: Fields, k: string): Option<string> {
    if k in f && f[k].JStr? then Some(f[k].s) else None
  }

  function StrOrNumValue(f: Fields, k: string): StrOrNum {
    if k in f && f[k].JNum? then Number(f[k].text) else Text(StringValue(f, k))
  }

  function ObjectFields(f: Fields, k: string): Fields {
    if k in f && f[k].JObj? then f[k].fields else map[]
  }

  function ArrayItems(f: Fields, k: string): seq<Json> {
    if k in f && f[k].JArr? then f[k].items else []
  }

  function DecodeCustomer(f: Fields): Customer {
    Customer(
      OptionalStringValue(f, "first_name"),
      OptionalStringValue(f, "last_name"),
      OptionalStringValue(f, "phone"),
      OptionalStringValue(f, "email"))
  }

  function DecodeShippingAddress(f: Fields): ShippingAddress {
    ShippingAddress(
      StringValue(f, "first_name"),
      OptionalStringValue(f, "last_name"),
      StrOrNumValue(f, "phone"),
      StrOrNumValue(f, "zip"),
      StringValue(f, "address1"),
      OptionalStringValue(f, "address2"),
      OptionalStringValue(f, "city"),
      OptionalStringValue(f, "province"),
      OptionalStringValue(f, "country"),
      OptionalStringValue(f, "country_code"),
      OptionalStringValue(f, "province_code"))
  }

  function DecodeNoteAttribute(j: Json): NoteAttribute {
    var f := if j.JObj? then j.fields else map[];
    NoteAttribute(StringValue(f, "name"), StringValue(f, "value"))
  }

  function DecodeLineItem(j: Json): LineItem {
    var f := if j.JObj? then j.fields else map[];
    LineItem(
      StringValue(f, "sku"),
      OptionalStringValue(f, "name"),
      StrOrNumValue(f, "price"),
      StrOrNumValue(f, "quantity"),
      StrOrNumValue(f, "product_id"))
  }

  function DecodeOrder(f: Fields): Order {
    var notes := ArrayItems(f, "note_attributes");
    var items := ArrayItems(f, "line_items");
    Order(
      StrOrNumValue(f, "id"),
      DecodeCustomer(ObjectFields(f, "customer")),
      DecodeShippingAddress(ObjectFields(f, "shipping_address")),
      seq(|notes|, i requires 0 <= i < |notes| => DecodeNoteAttribute(notes[i])),
      seq(|items|, i requires 0 <= i < |items| => DecodeLineItem(items[i])))
  }

  /** A string field that may be absent or `null` decodes to what it holds. */
  lemma OptionalDecodesCarried(f: Fields, k: string)
    requires k !in f || f[k].JStr? || f[k].JNull?
    ensures HoldsOptional(f, k, OptionalStringValue(f, k))
  {
  }

  lemma StrOrNumDecodesCarried(f: Fields, k: string)
    requires StringOrNumber(f, k)
    ensures HoldsStrOrNum(f, k, StrOrNumValue(f, k))
  {
  }

  lemma CustomerDecodesCarried(j: Json)
    requires CustomerConforms(j)
    ensures CustomerCarried(j, DecodeCustomer(j.fields))
  {
    OptionalDecodesCarried(j.fields, "first_name");
    OptionalDecodesCarried(j.fields, "last_name");
    OptionalDecodesCarried(j.fields, "phone");
    OptionalDecodesCarried(j.fields, "email");
  }

  lemma ShippingAddressDecodesCarried(j: Json)
    requires ShippingAddressConforms(j)
    ensures ShippingAddressCarried(j, DecodeShippingAddress(j.fields))
  {
    var f := j.fields;
    OptionalDecodesCarried(f, "last_name");
    StrOrNumDecodesCarried(f, "phone");
    StrOrNumDecodesCarried(f, "zip");
    OptionalDecodesCarried(f, "address2");
    OptionalDecodesCarried(f, "city");
    OptionalDecodesCarried(f, "province");
    OptionalDecodesCarried(f, "country");
    OptionalDecodesCarried(f, "country_code");
    OptionalDecodesCarried(f, "province_code");
  }

  lemma LineItemDecodesCarried(j: Json)
    requires LineItemConforms(j)
    ensures LineItemCarried(j, DecodeLineItem(j))
  {
    OptionalDecodesCarried(j.fields, "name");
    StrOrNumDecodesCarried(j.fields, "price");
    StrOrNumDecodesCarried(j.fields, "quantity");
    StrOrNumDecodesCarried(j.fields, "product_id");
  }

  /** A conforming payload decodes to the order it carries. */
  lemma OrderDecodesCarried(j: Json)
    requires ConformsToWebhookSchema(j)
    ensures OrderCarried(j, DecodeOrder(j.fields))
  {
    var f := j.fields;
    var o := DecodeOrder(f);
    StrOrNumDecodesCarried(f, "id");
    CustomerDecodesCarried(f["customer"]);
    ShippingAddressDecodesCarried(f["shipping_address"]);
    forall i | 0 <= i < |o.lineItems|
      ensures LineItemCarried(f["line_items"].items[i], o.lineItems[i])
    {
      LineItemDecodesCarried(f["line_items"].items[i]);
    }
  }

  /** The arrays of a carried order, read back from the payload. */
  lemma CarriedArrays(j: Json, o: Order)
    requires OrderCarried(j, o)
    ensures && |o.lineItems| == |j.fields["line_items"].items|
            && |o.noteAttributes| == |j.fields["note_attributes"].items|
            && (forall i :: 0 <= i < |o.noteAttributes| ==>
                  o.noteAttributes[i].name == j.fields["note_attributes"].items[i].fields["name"].s
                  && o.noteAttributes[i].value == j.fields["note_attributes"].items[i].fields["value"].s)
            && (forall i :: 0 <= i < |o.lineItems| ==> o.lineItems[i].sku == j.fields["line_items"].items[i].fields["sku"].s)
  {
    forall i | 0 <= i < |o.noteAttributes|
      ensures o.noteAttributes[i].name == j.fields["note_attributes"].items[i].fields["name"].s
      ensures o.noteAttributes[i].value == j.fields["note_attributes"].items[i].fields["value"].s
    {
      assert NoteAttributeCarried(j.fields["note_attributes"].items[i], o.noteAttributes[i]);
    }
    forall i | 0 <= i < |o.lineItems|
      ensures o.lineItems[i].sku == j.fields["line_items"].items[i].fields["sku"].s
    {
      assert LineItemCarried(j.fields["line_items"].items[i], o.lineItems[i]);
    }
  }

  /**
   `ShopifyWebhookSchema.parseAsync(data)`: the typed order, or the top-level
   keys zod lists in `error.flatten().fieldErrors`. When the input is not an
   object at all, zod's only issue has an empty path and no key is listed.
   */
  function Validate(j: Json): (r: Result<Order, seq<string>>)
    ensures r.Success? <==> ConformsToWebhookSchema(j)
    ensures r.Failure? ==>
              forall k :: k in r.error <==> j.JObj? && k in SchemaKeys && !KeyConforms(j.fields, k)
    ensures r.Failure? ==> (r.error == [] <==> !j.JObj?)
    ensures r.Success? ==> OrderCarried(j, r.value)
    ensures r.Success? ==>
              && |r.value.lineItems| == |j.fields["line_items"].items|
              && |r.value.noteAttributes| == |j.fields["note_attributes"].items|
              && (forall i :: 0 <= i < |r.value.noteAttributes| ==>
                    r.value.noteAttributes[i].name == j.fields["note_attributes"].items[i].fields["name"].s
                    && r.value.noteAttributes[i].value == j.fields["note_attributes"].items[i].fields["value"].s)
              && (forall i :: 0 <= i < |r.value.lineItems| ==>
                    r.value.lineItems[i].sku == j.fields["line_items"].items[i].fields["sku"].s)
  {
    if !j.JObj? then Failure([])
    else
      var failing := FailingKeys(j.fields, SchemaKeys);
      assert KeyConforms(j.fields, "id") <==> SchemaKeys[0] !in failing;
      assert KeyConforms(j.fields, "customer") <==> SchemaKeys[1] !in failing;
      assert KeyConforms(j.fields, "shipping_address") <==> SchemaKeys[2] !in failing;
      assert KeyConforms(j.fields, "note_attributes") <==> SchemaKeys[3] !in failing;
      assert KeyConforms(j.fields, "line_items") <==> SchemaKeys[4] !in failing;
      if failing == [] then
        OrderDecodesCarried(j);
        CarriedArrays(j, DecodeOrder(j.fields));
        Success(DecodeOrder(j.fields))
      else
        assert failing[0] in SchemaKeys && !KeyConforms(j.fields, failing[0]);
        Failure(failing)
  }

  /**
   `parseAsync` returns exactly the order the payload carries: it succeeds
   with `o` iff the payload conforms and carries `o`.
   */
  lemma ValidateIffCarried(j: Json, o: Order)
    ensures Validate(j) == Success(o) <==> ConformsToWebhookSchema(j) && OrderCarried(j, o)
  {
    if ConformsToWebhookSchema(j) && OrderCarried(j, o) {
      OrderCarriedIsUnique(j, Validate(j).value, o);
    }
  }

  // ---------------------------------------------------------------------
  // Encoding: an order as the JSON a webhook would carry

  function EncodeStrOrNum(x: StrOrNum): Json {
    match x
    case Text(s) => JStr(s)
    case Number(t) => JNum(t)
  }

  function EncodeNullable(x: Option<string>): Json {
    match x
    case Some(s) => JStr(s)
    case None => JNull
  }

  /** Adds key `k` only when the value is present. */
  function WithOptional(f: Fields, k: string, x: Option<string>): Fields {
    match x
    case Some(s) => f[k := JStr(s)]
    case None => f
  }

  function EncodeCustomer(c: Customer): Json {
    var required := map["first_name" := EncodeNullable(c.firstName), "phone" := EncodeNullable(c.phone)];
    JObj(WithOptional(WithOptional(required, "last_name", c.lastName), "email", c.email))
  }

  /** The optional string fields of a shipping address, by JSON key. */
  function ShippingOptional(a: ShippingAddress, k: string): Option<string> {
    if k == "last_name" then a.lastName
    else if k == "address2" then a.address2
    else if k == "city" then a.city
    else if k == "province" then a.province
    else if k == "country" then a.country
    else if k == "country_code" then a.countryCode
    else if k == "province_code" then a.provinceCode
    else None
  }

  const ShippingOptionalKeys: set<string> :=
    {"last_name", "address2", "city", "province", "country", "country_code", "province_code"}

  function EncodeShippingAddress(a: ShippingAddress): Json {
    var required := map[
      "first_name" := JStr(a.firstName),
      "phone" := EncodeStrOrNum(a.phone),
      "zip" := EncodeStrOrNum(a.zip),
      "address1" := JStr(a.address1)];
    var optional := map k | k in ShippingOptionalKeys && ShippingOptional(a, k).Some? :: JStr(ShippingOptional(a, k).value);
    JObj(required + optional)
  }

  function EncodeNoteAttribute(n: NoteAttribute): Json {
    JObj(map["name" := JStr(n.name), "value" := JStr(n.value)])
  }

  function EncodeLineItem(l: LineItem): Json {
    var required := map[
      "sku" := JStr(l.sku),
      "price" := EncodeStrOrNum(l.price),
      "quantity" := EncodeStrOrNum(l.quantity),
      "product_id" := EncodeStrOrNum(l.productId)];
    JObj(WithOptional(required, "name", l.name))
  }

  function EncodeNotes(notes: seq<NoteAttribute>): seq<Json> {
    seq(|notes|, i requires 0 <= i < |notes| => EncodeNoteAttribute(notes[i]))
  }

  function EncodeItems(lines: seq<LineItem>): seq<Json> {
    seq(|lines|, i requires 0 <= i < |lines| => EncodeLineItem(lines[i]))
  }

  function EncodeOrder(o: Order): Json {
    JObj(map[
      "id" := EncodeStrOrNum(o.id),
      "customer" := EncodeCustomer(o.customer),
      "shipping_address" := EncodeShippingAddress(o.shippingAddress),
      "note_attributes" := JArr(EncodeNotes(o.noteAttributes)),
      "line_items" := JArr(EncodeItems(o.lineItems))])
  }

  lemma CustomerRoundTrip(c: Customer)
    ensures CustomerConforms(EncodeCustomer(c))
    ensures DecodeCustomer(EncodeCustomer(c).fields) == c
  {
  }

  lemma ShippingOptionalDecodes(a: ShippingAddress, k: string)
    requires k in ShippingOptionalKeys
    ensures OptionalString(EncodeShippingAddress(a).fields, k)
    ensures OptionalStringValue(EncodeShippingAddress(a).fields, k) == ShippingOptional(a, k)
  {
  }

  /** The four required keys of an encoded shipping address hold their values. */
  lemma ShippingRequiredLookups(a: ShippingAddress)
    ensures var f := EncodeShippingAddress(a).fields;
            && "first_name" in f && f["first_name"] == JStr(a.firstName)
            && "address1" in f && f["address1"] == JStr(a.address1)
            && "phone" in f && f["phone"] == EncodeStrOrNum(a.phone)
            && "zip" in f && f["zip"] == EncodeStrOrNum(a.zip)
  {
  }

  /** Any fields holding a shipping address's values, key by key, conform and decode back to it. */
  lemma ShippingFieldsRoundTrip(f: Fields, a: ShippingAddress)
    requires "first_name" in f && f["first_name"] == JStr(a.firstName)
    requires "address1" in f && f["address1"] == JStr(a.address1)
    requires "phone" in f && f["phone"] == EncodeStrOrNum(a.phone)
    requires "zip" in f && f["zip"] == EncodeStrOrNum(a.zip)
    requires OptionalString(f, "last_name") && OptionalStringValue(f, "last_name") == ShippingOptional(a, "last_name")
    requires OptionalString(f, "address2") && OptionalStringValue(f, "address2") == ShippingOptional(a, "address2")
    requires OptionalString(f, "city") && OptionalStringValue(f, "city") == ShippingOptional(a, "city")
    requires OptionalString(f, "province") && OptionalStringValue(f, "province") == ShippingOptional(a, "province")
    requires OptionalString(f, "country") && OptionalStringValue(f, "country") == ShippingOptional(a, "country")
    requires OptionalString(f, "country_code") && OptionalStringValue(f, "country_code") == ShippingOptional(a, "country_code")
    requires OptionalString(f, "province_code") && OptionalStringValue(f, "province_code") == ShippingOptional(a, "province_code")
    ensures ShippingAddressConforms(JObj(f))
    ensures DecodeShippingAddress(f) == a
  {
  }

  lemma ShippingAddressRoundTrip(a: ShippingAddress)
    ensures ShippingAddressConforms(EncodeShippingAddress(a))
    ensures DecodeShippingAddress(EncodeShippingAddress(a).fields) == a
  {
    ShippingRequiredLookups(a);
    ShippingOptionalDecodes(a, "last_name");
    ShippingOptionalDecodes(a, "address2");
    ShippingOptionalDecodes(a, "city");
    ShippingOptionalDecodes(a, "province");
    ShippingOptionalDecodes(a, "country");
    ShippingOptionalDecodes(a, "country_code");
    ShippingOptionalDecodes(a, "province_code");
    ShippingFieldsRoundTrip(EncodeShippingAddress(a).fields, a);
  }

  lemma LineItemRoundTrip(l: LineItem)
    ensures LineItemConforms(EncodeLineItem(l))
    ensures DecodeLineItem(EncodeLineItem(l)) == l
  {
  }

  lemma {:induction false} EncodedNotesDecode(notes: seq<NoteAttribute>)
    ensures var items := EncodeNotes(notes);
            && (forall i :: 0 <= i < |items| ==> NoteAttributeConforms(items[i]))
            && seq(|items|, i requires 0 <= i < |items| => DecodeNoteAttribute(items[i])) == notes
  {
  }

  lemma {:induction false} EncodedItemsDecode(lines: seq<LineItem>)
    ensures var items := EncodeItems(lines);
            && (forall i :: 0 <= i < |items| ==> LineItemConforms(items[i]))
            && seq(|items|, i requires 0 <= i < |items| => DecodeLineItem(items[i])) == lines
  {
    var items := EncodeItems(lines);
    forall i | 0 <= i < |items|
      ensures LineItemConforms(items[i]) && DecodeLineItem(items[i]) == lines[i]
    {
      LineItemRoundTrip(lines[i]);
    }
  }

  /** The five keys of an encoded order hold the encodings of its parts. */
  lemma EncodeOrderLookups(o: Order)
    ensures var f := EncodeOrder(o).fields;
            && "id" in f && f["id"] == EncodeStrOrNum(o.id)
            && "customer" in f && f["customer"] == EncodeCustomer(o.customer)
            && "shipping_address" in f && f["shipping_address"] == EncodeShippingAddress(o.shippingAddress)
            && "note_attributes" in f && f["note_attributes"] == JArr(EncodeNotes(o.noteAttributes))
            && "line_items" in f && f["line_items"] == JArr(EncodeItems(o.lineItems))
  {
  }

  /** Any fields holding an order's encoded parts, key by key, conform to the schema. */
  lemma OrderFieldsConform(f: Fields, o: Order)
    requires "id" in f && f["id"] == EncodeStrOrNum(o.id)
    requires "customer" in f && f["customer"] == EncodeCustomer(o.customer)
    requires "shipping_address" in f && f["shipping_address"] == EncodeShippingAddress(o.shippingAddress)
    requires "note_attributes" in f && f["note_attributes"] == JArr(EncodeNotes(o.noteAttributes))
    requires "line_items" in f && f["line_items"] == JArr(EncodeItems(o.lineItems))
    ensures ConformsToWebhookSchema(JObj(f))
  {
    CustomerRoundTrip(o.customer);
    ShippingAddressRoundTrip(o.shippingAddress);
    EncodedNotesDecode(o.noteAttributes);
    EncodedItemsDecode(o.lineItems);
  }

  /** Any fields holding an order's encoded parts, key by key, decode back to it. */
  lemma OrderFieldsDecode(f: Fields, o: Order)
    requires "id" in f && f["id"] == EncodeStrOrNum(o.id)
    requires "customer" in f && f["customer"] == EncodeCustomer(o.customer)
    requires "shipping_address" in f && f["shipping_address"] == EncodeShippingAddress(o.shippingAddress)
    requires "note_attributes" in f && f["note_attributes"] == JArr(EncodeNotes(o.noteAttributes))
    requires "line_items" in f && f["line_items"] == JArr(EncodeItems(o.lineItems))
    ensures DecodeOrder(f) == o
  {
    CustomerRoundTrip(o.customer);
    ShippingAddressRoundTrip(o.shippingAddress);
    EncodedNotesDecode(o.noteAttributes);
    EncodedItemsDecode(o.lineItems);
    assert StrOrNumValue(f, "id") == o.id;
    assert ObjectFields(f, "customer") == EncodeCustomer(o.customer).fields;
    assert ObjectFields(f, "shipping_address") == EncodeShippingAddress(o.shippingAddress).fields;
    assert ArrayItems(f, "note_attributes") == EncodeNotes(o.noteAttributes);
    assert ArrayItems(f, "line_items") == EncodeItems(o.lineItems);
  }

  /**
   Every order is accepted back from its JSON encoding: validation loses
   nothing the typed order holds.
   */
  lemma {:induction false} ValidateEncodeRoundTrip(o: Order)
    ensures Validate(EncodeOrder(o)) == Success(o)
  {
    EncodeOrderLookups(o);
    OrderFieldsConform(EncodeOrder(o).fields, o);
    OrderFieldsDecode(EncodeOrder(o).fields, o);
  }

  /** zod strips keys the schema does not name: they never change the outcome. */
  lemma ValidateIgnoresUnknownKeys(f: Fields, k: string, v: Json)
    requires k !in SchemaKeys
    ensures Validate(JObj(f[k := v])) == Validate(JObj(f))
  {
    var g := f[k := v];
    assert forall key :: key in SchemaKeys ==> (key in g <==> key in f) && (key in f ==> g[key] == f[key]);
    assert FailingKeys(g, SchemaKeys) == FailingKeys(f, SchemaKeys) by {
      FailingKeysDependOnSchemaKeysOnly(f, g, SchemaKeys);
    }
    assert DecodeOrder(g) == DecodeOrder(f);
  }

  lemma {:induction false} FailingKeysDependOnSchemaKeysOnly(f: Fields, g: Fields, keys: seq<string>)
    requires forall key :: key in keys ==> (key in g <==> key in f) && (key in f ==> g[key] == f[key])
    ensures FailingKeys(g, keys) == FailingKeys(f, keys)
  {
    if keys != [] {
      assert keys[0] in keys;
      FailingKeysDependOnSchemaKeysOnly(f, g, keys[1..]);
    }
  }

  /**
   A shipping address without `address1` is rejected, and `fieldErrors`
   names `shipping_address`.
   */
  lemma MissingAddress1Rejected(j: Json)
    requires j.JObj? && "shipping_address" in j.fields
    requires j.fields["shipping_address"].JObj?
    requires "address1" !in j.fields["shipping_address"].fields
    ensures Validate(j).Failure?
    ensures "shipping_address" in Validate(j).error
  {
  }

  /**
   `customer.first_name` must be present: a customer object without it is
   rejected under `customer` (`NullCustomerFirstNameAccepted` gives the
   other half: an explicit `null` is accepted).
   */
  lemma MissingCustomerFirstNameRejected(j: Json)
    requires j.JObj? && "customer" in j.fields
    requires j.fields["customer"].JObj? && "first_name" !in j.fields["customer"].fields
    ensures Validate(j).Failure?
    ensures "customer" in Validate(j).error
  {
  }

  /**
   `first_name` is `.nullable()`: a customer whose `first_name` is `null`,
   and whose other fields conform, never makes validation list `customer`,
   and an accepted order then has no first name.
   */
  lemma NullCustomerFirstNameAccepted(j: Json)
    requires j.JObj? && "customer" in j.fields && j.fields["customer"].JObj?
    requires "first_name" in j.fields["customer"].fields && j.fields["customer"].fields["first_name"] == JNull
    requires OptionalNullableString(j.fields["customer"].fields, "last_name")
    requires NullableString(j.fields["customer"].fields, "phone")
    requires OptionalNullableString(j.fields["customer"].fields, "email")
    ensures Validate(j).Failure? ==> "customer" !in Validate(j).error
    ensures Validate(j).Success? ==> Validate(j).value.customer.firstName.None?
  {
  }

  /** `line_items` has no minimum length: an order with no items validates. */
  lemma EmptyLineItemsAccepted(o: Order)
    requires o.lineItems == []
    ensures Validate(EncodeOrder(o)).Success?
    ensures Validate(EncodeOrder(o)).value.lineItems == []
  {
    ValidateEncodeRoundTrip(o);
  }

  // ---------------------------------------------------------------------
  // nutraAffilateSchema

  /** The payload forwarded to the fulfillment API (`postData`). */
  datatype PostData = PostData(
    sku: string,
    sub1: string,
    sub2: string,
    sub3: string,
    firstName: string,
    lastName: string,
    telephone: string,
    emailId: string,
    pincode: string,
    address: string,
    address1: Option<string>,
    productName: string,
    productPrice: string,
    payment: string,
    city: string,
    state: string)

  /** `z.string().min(1)` */
  predicate NonEmpty(s: string) {
    |s| >= 1
  }

  /**
   `nutraAffilateSchema`. `isEmail` stands for zod's e-mail format test;
   `email_id` is always a string in the payload, so `.optional()` never
   excuses it.
   */
  predicate NutraSchemaHolds(p: PostData, isEmail: string -> bool) {
    && NonEmpty(p.sku)
    && NonEmpty(p.sub1)
    && NonEmpty(p.firstName)
    && NonEmpty(p.telephone)
    && isEmail(p.emailId)
    && NonEmpty(p.pincode)
    && NonEmpty(p.address)
    && NonEmpty(p.productName)
    && NonEmpty(p.productPrice)
    && p.payment == "COD"
    && NonEmpty(p.city)
    && NonEmpty(p.state)
  }
}

=== FILE: wrappers.dfy ===
/**
 Option and Result: JavaScript's `undefined`/`null` and its thrown errors.
 `Result` is failure-compatible, so a thrown error propagates with `:-`;
 `Option` is a plain datatype.
 */
module Wrappers {

  /** A value that may be absent (`undefined` or `null` in the source). */
  datatype Option<+T> = None | Some(value: T) {

    /** `x ?? d`: the value when present, else the default. */
    function GetOr(d: T): T {
      match this
      case Some(v) => v
      case None => d
    }

    /** `x ?? y` where the fallback `y` may itself be absent. */
    function OrElse(other: Option<T>): Option<T> {
      if Some? then this else other
    }
  }

  /** Either a value or the error a computation raised. */
  datatype Result<+T, +E> = Success(value: T) | Failure(error: E) {

    predicate IsFailure() {
      Failure?
    }

    function PropagateFailure<U>(): Result<U, E>
      requires Failure?
    {
      Failure(error)
    }

    function Extract(): T
      requires Success?
    {
      value
    }
  }
}
